=== FILE: README.md ===
# cilikube multi-cluster registry — a Dafny model

cilikube is a web back end that manages several Kubernetes clusters. It reads a YAML
configuration file, fills in defaults, and then builds a **cluster manager**. The manager holds:

- the configured cluster list (`Clusters`: name, kubeconfig path, enabled flag);
- the preferred cluster name (`Server.ActiveCluster`);
- one client per enabled cluster that could be reached;
- the currently active client and its name.

Administrators can switch the active cluster, and add, update or remove clusters. Each
such change is written back to the configuration file, and a failed write is rolled back
(except for a switch). Every Kubernetes request names its cluster in the path
(`/clusters/:cluster_name/...`). A resolver turns that name into a client or an HTTP
error. A few services check and normalise what they send to the API.

The model is purely functional:

- **State.** `ClusterManager.Manager` holds the in-memory configuration document
  (cluster list and preferred name), the document last saved to disk, the clients map,
  and the active pair.
- **Operations.** Each mutating operation returns a `Step` made of the next state and a
  `Status`. A status is `Done` or `Failed(error)`.
- **Side effects as parameters.** What the code does through side effects is passed in:
  - building a client and checking its connection is an oracle `connect` that returns
    `BuildFailed`, `Unreachable(client)` or `Reachable(client)`. At startup it is indexed
    by the entry's position, since every entry is probed separately;
  - saving the configuration is a `SaveResult` (`Saved` or `SaveFailed`);
  - reading the file is a `ReadOutcome`;
  - the environment is an `Environment` value (`JWT_SECRET`, `KUBECONFIG`, the home
    directory).
- **Modules:**
  - `Base` holds `Option` and `Result`;
  - `Paths` holds `filepath.Ext` and `filepath.Join` on `/`-separated paths;
  - `Configs` covers configs/config.go;
  - `ClusterManager` covers pkg/k8s/manager.go;
  - `ManagerFixes` holds the corrected update and remove (see Findings);
  - `RegistryInvariants` holds the invariants of the registry and their preservation
    over any sequence of calls;
  - `Resolver` covers pkg/k8s/utils.go;
  - `ServerMain` covers the startup policy of cmd/server/main.go;
  - `KubeRequests` and the four service modules cover the API requests.

Three behaviours of the code are easy to misread:

1. **Availability at startup.** A name's availability bit is not the same as "has a
   client". A disabled entry listed after an enabled entry with the same name sets that
   name's availability to `false`, while the client built for the first entry stays
   registered. A disabled entry listed before the entry that reaches its cluster does
   not matter, because that entry sets the bit back to `true`. `NewClusterManager` states
   the exact rule:
   - a name without a client is never available;
   - a registered name is available exactly when no disabled entry of that name follows
     the entry whose client was kept.
2. **`AddCluster` on an unnamed entry.** When the preferred name is also empty,
   `AddCluster` of an enabled, reachable entry with an empty name makes it the active
   cluster. Nothing in the manager rejects empty names.
3. **The "was active" test** of `UpdateCluster` and `RemoveCluster`, described under
   Findings.

## Model

| member | source | states |
|---|---|---|
| Paths.Ext | configs/config.go:75 | The extension is the suffix from the last `.` of the last path element. It is empty exactly when that element has no dot, and otherwise starts with `.` and contains no other dot and no separator. |
| Paths.Join | cmd/server/main.go:167 | The joined path starts with the directory and ends with the relative part, and it equals the relative part exactly when the directory is empty. A non-empty directory is followed by exactly one separator: the separator is added only when the directory does not already end in one, so the length is that of the two parts, plus one in that case. |
| Configs.ResolveKubeconfig | configs/config.go:158-171 | An explicit kubeconfig other than "default" is kept. Otherwise it is `KUBECONFIG` when set, else `~/.kube/config` when the home directory is known, else empty. A value that still needs resolving afterwards is empty or `KUBECONFIG` itself. |
| Configs.SetDefaults | configs/config.go:114-204 | Every field that defaulting fills is non-zero afterwards. A field that was already set keeps its value, and a zero field gets the fixed default. The database name and password are defaulted only when the database is enabled. The JWT secret comes from the configuration, else `JWT_SECRET`, else a fixed fallback. The cluster list, the preferred cluster, the minikube path and the enabled flag are never touched. |
| Configs.SetDefaultsIdempotent | configs/config.go:114-204 | Under the same environment, a second defaulting pass changes nothing. |
| Configs.SetDefaultsKeepsFilledConfig | configs/config.go:114-204 | A configuration whose fields are all set, with a resolved kubeconfig, is returned unchanged. |
| Configs.Load | configs/config.go:70-112 | An empty path is rejected. A path whose extension is not `.yaml`/`.yml` is rejected with that extension. A missing file, an unreadable file and a malformed document each have their own error. Success happens exactly when the document parsed, and the result is that document after defaulting. |
| Configs.LoadChecksExtensionBeforeReading | configs/config.go:75-84 | For a path without a YAML extension the answer is an error and is the same whatever reading the file would have produced. |
| Configs.LoadedPathEndsInYamlSuffix | configs/config.go:79-81 | Every path that loads successfully ends in `.yml` or `.yaml`. |
| ClusterManager.FindFrom | pkg/k8s/manager.go:264-272 | The result is the first position at or after the start whose entry carries the name, or none when no such entry exists. |
| ClusterManager.IndexOf | pkg/k8s/manager.go:264-272 | The result is the first entry with the name, and it is absent exactly when the name is not configured. |
| ClusterManager.Without | pkg/k8s/manager.go:342-348 | The result holds exactly the entries whose name differs and is no longer than the input. |
| ClusterManager.EffectivePath | pkg/k8s/manager.go:102-113 | "in-cluster" becomes the empty path. Every other path, "" and "default" included, is passed on unchanged. |
| ClusterManager.InitializeSingleClient | pkg/k8s/manager.go:94-128 | The result is available exactly when the client was built and answered. A client is returned exactly when it was built, and it is the one built for the effective path. |
| ClusterManager.ScanFacts | pkg/k8s/manager.go:37-66 | After any prefix of the list, the clients and the availability report match the entries seen so far, and the first entry to reach its cluster owns the client. That name's availability bit is true exactly when no disabled entry of the name follows that first entry. |
| ClusterManager.NewClusterManager | pkg/k8s/manager.go:22-92 | Every named entry gets an availability bit and unnamed entries get none. A name has a client exactly when one of its enabled entries reached its cluster, and it is the client of the first such entry. Available implies registered. A registered name is available exactly when no disabled entry of that name follows the entry whose client was kept. The active pair is set exactly when the preferred name has a client with a Clientset, and there is no fallback. |
| ClusterManager.GetClient | pkg/k8s/manager.go:405-421 | A name with a client yields that client. Otherwise the error says not configured, disabled, or failed to initialise, according to the first entry with that name. Each of these is an if-and-only-if. |
| ClusterManager.GetActiveClient | pkg/k8s/manager.go:165-176 | The result is the active client when there is one. Otherwise it is an error that names the preferred cluster if one is configured, or says that none is. |
| ClusterManager.GetClusterConfiguration | pkg/k8s/manager.go:386-395 | The result is the first entry with the name. It fails, as not configured, exactly when the name has no entry. |
| ClusterManager.ListClusterConfigurations | pkg/k8s/manager.go:397-403 | The list is the in-memory cluster list, copied element by element in order. The names it holds are exactly those `GetClusterConfiguration` finds, and for each of those it holds what that function returns. |
| ClusterManager.GetAllClients | pkg/k8s/manager.go:423-431 | The map holds exactly the names `GetClient` succeeds on, each with the client `GetClient` returns. |
| ClusterManager.GetAvailableClientNames | pkg/k8s/manager.go:433-441 | The list holds every name that has a client, no other name, and no name twice. |
| ClusterManager.SetActiveCluster | pkg/k8s/manager.go:132-163 | An unknown or failed name is rejected with `GetClient`'s reason, and a client without a Clientset is rejected. Both leave the state unchanged. On acceptance the active pair and the preferred name all move to the target. A failed save is reported but the switch is kept in memory, and the disk is left unchanged. |
| ClusterManager.AddCluster | pkg/k8s/manager.go:208-248 | A name already in the list or in the clients map is rejected. Any failure leaves the state unchanged. A failed save after both checks pass reports the save error for that name. On success the entry is appended and saved. A client is added exactly when the entry is enabled and reachable. The new cluster becomes active exactly when none was active and it is the preferred one. |
| ClusterManager.UpdateCluster | pkg/k8s/manager.go:250-328 | The call is rejected if it renames the cluster or the name is unknown. On success the first entry with that name is replaced and saved. The old client is always dropped, and a new one exists exactly when the entry is enabled and reachable. The preference is cleared when the code's "was active" test holds and the entry is disabled. When the target's name was the active name, the active pair is cleared, and it is set back to the target's new client exactly when that client loads and the target is the preferred name. Any other target becomes the active cluster, with its new client, exactly when that client loads and the target is the preferred name; otherwise the active pair is kept. When an update passes both checks but its save fails, it reports the save error, puts the entry back, and sets the preference to the target's name when the test held and the entry was disabled; otherwise the preference is kept. |
| ClusterManager.RemoveCluster | pkg/k8s/manager.go:330-384 | An unknown name is rejected. A failed save changes nothing. On success every entry with that name goes, the others keep their order, the client goes, and the active pair and preference are cleared when the code's "was active" test holds. |
| ManagerFixes.UpdateClusterFixed | pkg/k8s/manager.go:262 | Agrees with `UpdateCluster` on status, cluster list and clients. The preference is cleared only when the target really is active and becomes disabled, and a failed save writes back exactly what it cleared. A truly active target loses the active pair and gets it back, with its new client, exactly when that client loads and it is still the preferred name. Any other target becomes the active cluster, with its new client, exactly when that client loads and it is the preferred name; otherwise the active pair is kept. A successful update is what gets saved. |
| ManagerFixes.RemoveClusterFixed | pkg/k8s/manager.go:337 | Agrees with `RemoveCluster` on status, cluster list and clients. A failure changes nothing, and a successful remove is what gets saved. The preference and the active pair are cleared only when the target really is active. |
| ManagerFixes.WitnessStateIsStartupState | pkg/k8s/manager.go:22-92 | The counterexample state is what startup produces when no cluster can be reached. |
| ManagerFixes.UpdateClusterClearsUnrelatedPreference | pkg/k8s/manager.go:262-280 | Disabling an unnamed entry while nothing is active clears the saved preference for another cluster. The corrected update keeps it. |
| ManagerFixes.UpdateClusterFailedSaveRewritesPreference | pkg/k8s/manager.go:282-290 | When the save of that update fails, the in-memory preference becomes "". The corrected update leaves the state unchanged. |
| ManagerFixes.RemoveClusterClearsUnrelatedPreference | pkg/k8s/manager.go:337-359 | Removing an unnamed entry while nothing is active clears the saved preference for another cluster. The corrected remove keeps it. |
| RegistryInvariants.NewClusterManagerValid | pkg/k8s/manager.go:22-92 | Startup establishes the registry invariants: every client belongs to an enabled entry, and an active client is the one registered under the active name, which is the preferred name. |
| RegistryInvariants.SetActiveClusterPreservesValid | pkg/k8s/manager.go:132-163 | Switching preserves the invariants. |
| RegistryInvariants.AddClusterPreservesValid | pkg/k8s/manager.go:208-248 | Adding preserves the invariants. |
| RegistryInvariants.AddClusterNeverSeesStrayClient | pkg/k8s/manager.go:217-219 | Under the invariants, the check for a client without a configured entry never fires. |
| RegistryInvariants.UpdateClusterWithPreservesValid | pkg/k8s/manager.go:250-328 | Updating preserves the invariants under any "was active" test that counts a truly active target. |
| RegistryInvariants.UpdateClusterPreservesValid | pkg/k8s/manager.go:250-328 | The update as written preserves the invariants. |
| RegistryInvariants.RemoveClusterWithPreservesValid | pkg/k8s/manager.go:330-384 | Removing preserves the invariants under any "was active" test that counts a truly active target. |
| RegistryInvariants.RemoveClusterPreservesValid | pkg/k8s/manager.go:330-384 | The remove as written preserves the invariants. |
| RegistryInvariants.UpdateClusterFixedPreservesValid | pkg/k8s/manager.go:250-328 | The corrected update preserves the invariants. |
| RegistryInvariants.RemoveClusterFixedPreservesValid | pkg/k8s/manager.go:330-384 | The corrected remove preserves the invariants. |
| RegistryInvariants.FixesAgreeOnNamedTargets | pkg/k8s/manager.go:262 | For a non-empty name on a valid state, the corrected and the written update and remove give the same result. |
| RegistryInvariants.ActiveClientIsRegistered | pkg/k8s/manager.go:165-176 | Under the invariants, the active client is what `GetClient` returns for the active name, and that name has a configuration. |
| RegistryInvariants.LookupFindsOnlyEnabledClusters | pkg/k8s/manager.go:405-421 | Under the invariants, every name `GetClient` finds has some enabled entry, and `GetClusterConfiguration` finds an entry for it (the first one, which may be a disabled duplicate). |
| RegistryInvariants.RunPreservesValid | pkg/k8s/manager.go:132-384 | Any sequence of administrative calls preserves the invariants, with the corrected update and remove. |
| RegistryInvariants.ReachableStatesAreValid | pkg/k8s/manager.go:22-384 | Every state reachable from startup satisfies the invariants, with the corrected update and remove. |
| RegistryInvariants.RunAsWrittenPreservesValid | pkg/k8s/manager.go:132-384 | Any sequence of administrative calls as the code is written preserves the invariants. |
| RegistryInvariants.ReachableStatesAreValidAsWritten | pkg/k8s/manager.go:22-384 | Every state reachable from startup through the code as written satisfies the invariants. |
| RegistryInvariants.SuccessIsSaved | pkg/k8s/manager.go:132-384 | After every successful call, corrected or as written, the saved document equals the in-memory one. |
| RegistryInvariants.FailedSaveLeavesDiskAlone | pkg/k8s/manager.go:132-384 | A failed save never changes the saved document, in the corrected operations and as written. |
| RegistryInvariants.FailedChangeIsUndone | pkg/k8s/manager.go:208-384 | On a valid state, a failed add, or a failed corrected update or remove, leaves the whole state unchanged. The code's own update does not (see Findings). |
| RegistryInvariants.WithoutPreservesOrder | pkg/k8s/manager.go:342-348 | Removal distributes over concatenation, so the surviving entries keep their order. |
| RegistryInvariants.WithoutUnusedName | pkg/k8s/manager.go:342-348 | Removing a name that no entry carries leaves the list as it is. |
| Resolver.ClientForRequest | pkg/k8s/utils.go:10-26 | A missing name gives 400. A name `GetClient` fails on gives 404. A client without a Clientset gives 500. Otherwise the result is exactly the registry's client. Each of these is an if-and-only-if. |
| Resolver.ResolutionDependsOnlyOnLookup | pkg/k8s/utils.go:16-25 | The outcome depends on the registry only through `GetClient` for that name. |
| Resolver.ResolvedIffSwitchable | pkg/k8s/utils.go:16-25 | A named request resolves exactly when `SetActiveCluster` would accept that name. |
| ServerMain.ConfigPath | cmd/server/main.go:155-196 | The path is the `-config` flag if set, else `CILIKUBE_CONFIG_PATH`, else `configs/config.yaml` under the working directory when it exists, else `../../configs/config.yaml`. It is never empty. |
| ServerMain.AnyClusterAvailable | cmd/server/main.go:50-58 | True exactly when some cluster is reported available. |
| ServerMain.ChooseInitialClient | cmd/server/main.go:73-106 | The preferred cluster's client is chosen when it is registered and reported available. Otherwise a registered client is chosen only when some cluster is available. When availability is backed by clients, a client is chosen exactly when some cluster is available. |
| ServerMain.StartupAvailabilityBacked | pkg/k8s/manager.go:55-58 | Every cluster reported available at startup has a client. |
| ServerMain.StartClusters | cmd/server/main.go:45-106 | The registry and the availability report are those of `NewClusterManager`. `anyAvailable` is true exactly when some cluster in that report is available. A client is chosen exactly when `anyAvailable` holds, and it is always a registered client. When the preferred cluster is registered and available, its client is the one chosen. With no disabled entries, a client is chosen exactly when some cluster has a client. |
| KubeRequests.SelectiveListOptions | internal/service/configmap_service.go:27-33 | The options carry the selector, the limit when it is positive and 0 otherwise, and nothing else. |
| KubeRequests.SelectiveOptionsDropOnlyNegativeLimits | internal/service/configmap_service.go:27-33 | Setting these options conditionally differs from passing them through only for a negative limit. |
| KubeRequests.NamespacedWrite | internal/service/configmap_service.go:38-50 | A conflicting namespace is rejected first, then an empty name. Otherwise the object is sent to the path namespace, with that namespace and with its name and content kept. Each rejection is an if-and-only-if. |
| KubeRequests.NamespacedWriteIdempotent | internal/service/configmap_service.go:39-44 | Resubmitting the object that was sent gives the same request. |
| KubeRequests.NamespacedWriteIgnoresContent | internal/service/configmap_service.go:39-47 | The verdict does not depend on the content, and an empty namespace and the path namespace are treated alike. |
| KubeRequests.ClusterScopedWrite | internal/service/pv_service.go:44-53 | Only an empty name is rejected. Otherwise the object is sent cluster-scoped with an empty namespace, name and content kept. |
| KubeRequests.ClusterScopedWriteIgnoresNamespace | internal/service/pv_service.go:50 | A cluster-scoped write never reports a namespace conflict, and the namespace the caller supplied never changes what is sent. |
| ConfigMapService.List | internal/service/configmap_service.go:26-35 | A namespaced list of ConfigMaps with the selective options. |
| ConfigMapService.Create | internal/service/configmap_service.go:38-50 | Conflict, then empty name. Otherwise a create of the object in the path namespace. |
| ConfigMapService.Update | internal/service/configmap_service.go:53-70 | The same checks, then an update in the path namespace. |
| SecretService.List | internal/service/secret_service.go:26-35 | A namespaced list of Secrets with the selective options. |
| SecretService.Create | internal/service/secret_service.go:38-51 | Conflict, then empty name. Otherwise a create of the Secret in the path namespace. |
| SecretService.Update | internal/service/secret_service.go:54-66 | The same checks, then an update in the path namespace. |
| PVService.Get | internal/service/pv_service.go:22-24 | Any name is forwarded to a cluster-scoped get. |
| PVService.List | internal/service/pv_service.go:31-41 | A cluster-scoped list with the selective options. |
| PVService.Create | internal/service/pv_service.go:44-53 | Only an empty name is rejected. The namespace is cleared whatever the caller supplied. |
| PVService.Update | internal/service/pv_service.go:59-74 | The same as create, with an update. |
| PVService.Delete | internal/service/pv_service.go:77-79 | Any name is forwarded to a cluster-scoped delete. |
| NodeService.List | internal/service/node_service.go:64-73 | Selector, limit and continue token are passed through exactly, a negative limit included. |
| NodeService.WatchTimeout | internal/service/node_service.go:79-91 | A positive timeout is used as given, zero becomes 1800, and a negative one means no client-side timeout. A timeout that is set is always positive. |
| NodeService.Watch | internal/service/node_service.go:78-101 | The request is a watch with the selector and resource version passed through and the chosen timeout. |
| NodeService.NodeListKeepsNegativeLimits | internal/service/node_service.go:64-73 | Node listing agrees with the selective options exactly when the limit is not negative. |
| NodeService.WatchTimeoutStable | internal/service/node_service.go:79-91 | Feeding a chosen timeout back in chooses it again, and no timeout is chosen only for a negative input. |

## Left out

- The `sync.RWMutex` is left out. Every call is modelled as one atomic step, which is what the lock provides.
- Logging, message texts and error wrapping are left out. Errors are datatype constructors that keep the cluster name.
- YAML parsing (`yaml.Unmarshal`), `os.Stat` and `os.ReadFile` are not modelled. Their outcome is the `ReadOutcome` parameter. `os.Getwd` and `os.Stat` in `loadConfig` are the `workingDir` and `fileExists` parameters.
- `NewClient` and `CheckConnection` are not modelled. The client-go connection is the `connect` oracle, and a client keeps only its identity and whether it has a Clientset.
- `SaveGlobalConfig` is not modelled. Its serialisation is out of scope, and only its success or failure is modelled.
- `GetDSN` is not modelled. It formats a connection string and needs no proof.
- The database, Casbin, the gin router, the handlers, the installer and the services other than ConfigMap, Secret, PV and Node are left out. They are I/O or forward to client-go with at most the namespace rule already modelled.
- ConfigMap and Secret `Get` and `Delete`, and the Node operations other than `List` and `Watch`, are left out. They forward to client-go unchanged.
- `GetActiveClientset`, `GetActiveConfig` and `GetActiveClusterName` are left out. They are field reads of the active pair that `GetActiveClient` covers.
- `NewClusterManager` panics when the global configuration is not loaded. The model takes the document as an argument, so that case does not arise.
- `loadConfig` also calls `Load` on the chosen path. When the path is the working-directory candidate it returns `Load`'s result directly; for a path from the flag, the environment or the relative fallback it wraps `Load`'s error with the path. The model stops at the choice of path.
- Paths.Join: does not clean the path as `filepath.Join` does (no `..` or doubled-separator collapsing), and `/` is the only separator, so Windows paths are not modelled.
- ClusterManager.GetAvailableClientNames: Go map iteration order is unspecified, so the contract states membership and distinctness but not an order.
- ServerMain.ChooseInitialClient: when the chosen fallback name is listed first, which client that is depends on Go's map order. The contract states only that it is a registered client.
- The services mutate the caller's object in place. The namespace is filled even when the name check then fails. The model returns the request and does not model that caller-visible mutation.

## Findings

| source | as written | input that shows it | evidently intended | confidence | as-written member | corrected member |
|---|---|---|---|---|---|---|
| pkg/k8s/manager.go:262 | `wasActive` is `activeClientName == clusterName`. It holds for the name "" whenever no cluster is active. | Clusters `[("", "p", enabled), ("a", "q", enabled)]` with preferred cluster "a", after a startup where neither is reachable. Then `UpdateCluster("", {IsActive: false})` saves `ActiveCluster: ""`. With a failing save it leaves "" in memory, which the next save writes to disk. | The target counts as active only when an active client exists under its name, so the preference for "a" survives. | medium, not executed | ManagerFixes.UpdateClusterClearsUnrelatedPreference | ManagerFixes.UpdateClusterFixed |
| pkg/k8s/manager.go:337 | The same test in `RemoveCluster`. | On the same state, `RemoveCluster("")` saves `ActiveCluster: ""`. | The preference is cleared only when the removed cluster is the active one. | medium, not executed | ManagerFixes.RemoveClusterClearsUnrelatedPreference | ManagerFixes.RemoveClusterFixed |

The corrected operations are the ones `RegistryInvariants.Apply` runs; `RegistryInvariants.ApplyAsWritten` runs the code's own, and both kinds of run keep the invariants. For any non-empty
name on a valid state they coincide with the code (`RegistryInvariants.FixesAgreeOnNamedTargets`).

=== FILE: base.dfy ===
/** Failure-carrying wrappers shared by every module of the model. */
module Base {

  /** An optional value: Go's nil pointer or a missing map entry is `None`. */
  datatype Option<T> = None | Some(value: T)

  /** A Go `(value, error)` pair where exactly one side is meaningful. */
  datatype Result<T, E> = Ok(value: T) | Err(error: E)
}

=== FILE: cluster_manager.dfy ===
/**
 * The multi-cluster registry of pkg/k8s/manager.go as a functional state machine.
 *
 * A `Manager` holds what the Go `ClusterManager` and the package-global configuration
 * hold between calls: the in-memory cluster list and preferred `ActiveCluster` name,
 * the copy of them last written to disk, the `clients` map (only clusters whose client
 * was built and answered the connectivity probe) and the active pair
 * (`activeClientName`, `activeClient`). Every method of the Go type runs under its
 * mutex, so each is one atomic step here: a function from the state and the outcomes
 * of its side effects (client construction, connectivity probe, config save) to the
 * next state and a status.
 */
module ClusterManager {
  import opened Base
  import opened Configs

  /**
   * A built Kubernetes client. `id` stands for the identity of the Go *Client pointer,
   * `hasClientset` for `Clientset != nil`.
   */
  datatype Client = Client(id: nat, hasClientset: bool)

  /**
   * The combined outcome of `NewClient` and `CheckConnection` for one kubeconfig path:
   * construction failed, the client was built but the API server did not answer, or both
   * succeeded.
   */
  datatype Connection = BuildFailed | Unreachable(client: Client) | Reachable(client: Client)

  /** What `initializeSingleK8sClient` returns: the client it built, if any, and availability. */
  datatype InitReport = InitReport(client: Option<Client>, available: bool)

  /** The outcome of `SaveGlobalConfig`. */
  datatype SaveResult = Saved | SaveFailed

  /** The part of the configuration document the registry reads and writes. */
  datatype Document = Document(clusters: seq<ClusterInfo>, activeCluster: string)

  datatype Manager = Manager(
    doc: Document,                 // the in-memory configuration
    saved: Document,               // what the last successful save wrote
    clients: map<string, Client>,
    activeName: string,            // "" when unset
    active: Option<Client>)

  datatype ManagerError =
    | NotConfigured(name: string)
    | Inactive(name: string)
    | Unavailable(name: string)
    | InvalidClient(name: string)
    | AlreadyConfigured(name: string)
    | AlreadyLoaded(name: string)
    | RenameRejected(from: string, to: string)
    | PersistFailed(name: string)
    | SwitchedButNotSaved(name: string)
    | NoActiveCluster
    | ActiveClusterUnavailable(expected: string)

  datatype Status = Done | Failed(error: ManagerError)

  /** The state after an operation, and what the operation returned. */
  datatype Step = Step(next: Manager, status: Status)

  // ---------------------------------------------------------------------------
  // The cluster list
  // ---------------------------------------------------------------------------

  predicate Configured(clusters: seq<ClusterInfo>, name: string) {
    exists i :: 0 <= i < |clusters| && clusters[i].name == name
  }

  ghost predicate HasActiveEntry(clusters: seq<ClusterInfo>, name: string) {
    exists i :: 0 <= i < |clusters| && clusters[i].name == name && clusters[i].isActive
  }

  /** `i` is the first position of the list holding an entry called `name`. */
  ghost predicate FirstEntryAt(clusters: seq<ClusterInfo>, name: string, i: int) {
    && 0 <= i < |clusters|
    && clusters[i].name == name
    && forall j :: 0 <= j < i ==> clusters[j].name != name
  }

  function FindFrom(clusters: seq<ClusterInfo>, name: string, from: nat): (r: Option<nat>)
    requires from <= |clusters|
    ensures r.Some? ==> from <= r.value < |clusters| && clusters[r.value].name == name
    ensures r.Some? ==> forall j :: from <= j < r.value ==> clusters[j].name != name
    ensures r.None? ==> forall j :: from <= j < |clusters| ==> clusters[j].name != name
    decreases |clusters| - from
  {
    if from == |clusters| then None
    else if clusters[from].name == name then Some(from)
    else FindFrom(clusters, name, from + 1)
  }

  /** The linear scan every method of the manager uses: the first entry with that name wins. */
  function IndexOf(clusters: seq<ClusterInfo>, name: string): (r: Option<nat>)
    ensures r.Some? ==> FirstEntryAt(clusters, name, r.value)
    ensures r.None? <==> !Configured(clusters, name)
  {
    FindFrom(clusters, name, 0)
  }

  /** The list with every entry called `name` removed, the others kept in order. */
  function Without(clusters: seq<ClusterInfo>, name: string): (r: seq<ClusterInfo>)
    ensures forall c :: c in r <==> c in clusters && c.name != name
    ensures |r| <= |clusters|
  {
    if |clusters| == 0 then []
    else (if clusters[0].name == name then [] else [clusters[0]]) + Without(clusters[1..], name)
  }

  // ---------------------------------------------------------------------------
  // Building one client
  // ---------------------------------------------------------------------------

  const InClusterPath := "in-cluster"

  /** The path handed to `NewClient`: "in-cluster" means the service-account identity, spelled "". */
  function EffectivePath(path: string): (p: string)
    ensures path == InClusterPath ==> p == ""
    ensures path != InClusterPath ==> p == path
  {
    if path == InClusterPath then "" else path
  }

  /**
   * `initializeSingleK8sClient`. `connect` answers for the path actually handed to
   * `NewClient`; a client that was built but did not answer is returned as unavailable.
   */
  function InitializeSingleClient(path: string, connect: string -> Connection): (rep: InitReport)
    ensures rep.available <==> connect(EffectivePath(path)).Reachable?
    ensures rep.client.None? <==> connect(EffectivePath(path)).BuildFailed?
    ensures rep.client.Some? ==> rep.client.value == connect(EffectivePath(path)).client
  {
    match connect(EffectivePath(path))
    case BuildFailed => InitReport(None, false)
    case Unreachable(c) => InitReport(Some(c), false)
    case Reachable(c) => InitReport(Some(c), true)
  }

  // ---------------------------------------------------------------------------
  // Startup (NewClusterManager)
  // ---------------------------------------------------------------------------

  /** The maps the startup loop builds. */
  datatype Scan = Scan(clients: map<string, Client>, availability: map<string, bool>)

  /** The result of `NewClusterManager`: the registry and the availability report. */
  datatype Startup = Startup(manager: Manager, availability: map<string, bool>)

  /** The probe outcome of the entry at position `i`; `connect(i)` is that probe. */
  function Probe(connect: nat -> string -> Connection, i: nat, info: ClusterInfo): Connection {
    connect(i)(EffectivePath(info.configPath))
  }

  /** The entry at position `i` is named, enabled, and its client answered. */
  predicate Reaches(connect: nat -> string -> Connection, i: nat, info: ClusterInfo) {
    info.name != "" && info.isActive && Probe(connect, i, info).Reachable?
  }

  ghost predicate NamedBefore(clusters: seq<ClusterInfo>, k: int, name: string) {
    exists i :: 0 <= i < k && i < |clusters| && clusters[i].name == name
  }

  ghost predicate ReachedBefore(clusters: seq<ClusterInfo>, connect: nat -> string -> Connection, k: int, name: string) {
    exists i :: 0 <= i < k && i < |clusters| && clusters[i].name == name && Reaches(connect, i, clusters[i])
  }

  /** No earlier entry with the same name reached its cluster: the entry whose client startup keeps. */
  ghost predicate FirstToReach(clusters: seq<ClusterInfo>, connect: nat -> string -> Connection, i: int) {
    && 0 <= i < |clusters|
    && Reaches(connect, i, clusters[i])
    && forall j :: 0 <= j < i && clusters[j].name == clusters[i].name ==> !Reaches(connect, j, clusters[j])
  }

  ghost predicate ActiveBefore(clusters: seq<ClusterInfo>, k: int, name: string) {
    forall i :: 0 <= i < k && i < |clusters| && clusters[i].name == name ==> clusters[i].isActive
  }

  /** One iteration of the startup loop. */
  function ScanEntry(s: Scan, i: nat, info: ClusterInfo, connect: nat -> string -> Connection): Scan {
    if info.name == "" then s
    else if !info.isActive then s.(availability := s.availability[info.name := false])
    else if info.name in s.clients then s
    else
      var rep := InitializeSingleClient(info.configPath, connect(i));
      Scan(if rep.available then s.clients[info.name := rep.client.value] else s.clients,
           s.availability[info.name := rep.available])
  }

  /** The startup loop after its first `k` iterations. */
  function ScanPrefix(clusters: seq<ClusterInfo>, connect: nat -> string -> Connection, k: nat): Scan
    requires k <= |clusters|
  {
    if k == 0 then Scan(map[], map[])
    else ScanEntry(ScanPrefix(clusters, connect, k - 1), k - 1, clusters[k - 1], connect)
  }

  // What the startup loop has established after `k` iterations, one fact at a time.

  /** Every named entry seen so far has an availability bit, and nothing else has. */
  ghost predicate AvailabilityKeys(clusters: seq<ClusterInfo>, k: nat, s: Scan) {
    forall n :: n in s.availability <==> n != "" && NamedBefore(clusters, k, n)
  }

  /** A name has a client exactly when one of its entries seen so far reached its cluster. */
  ghost predicate ClientKeys(clusters: seq<ClusterInfo>, connect: nat -> string -> Connection, k: nat, s: Scan) {
    forall n :: n in s.clients <==> ReachedBefore(clusters, connect, k, n)
  }

  /** A name reported available has a client. */
  ghost predicate AvailableHasClient(s: Scan) {
    forall n :: n in s.availability && s.availability[n] ==> n in s.clients
  }

  /** The first entry of a name to reach its cluster owns that name's client. */
  ghost predicate FirstReachOwns(clusters: seq<ClusterInfo>, connect: nat -> string -> Connection, k: nat, s: Scan) {
    forall i :: 0 <= i < k && FirstToReach(clusters, connect, i) ==>
      clusters[i].name in s.clients && s.clients[clusters[i].name] == Probe(connect, i, clusters[i]).client
  }

  /** A registered name none of whose entries so far was disabled is reported available. */
  ghost predicate ActiveIsAvailable(clusters: seq<ClusterInfo>, k: nat, s: Scan) {
    forall n :: n in s.clients && ActiveBefore(clusters, k, n) ==> n in s.availability && s.availability[n]
  }

  /** Every entry called `name` at a position in `lo..k` is enabled. */
  ghost predicate EnabledBetween(clusters: seq<ClusterInfo>, lo: int, k: int, name: string) {
    forall j :: lo <= j < k && 0 <= j < |clusters| && clusters[j].name == name ==> clusters[j].isActive
  }

  /**
   * The availability bit of a registered name: once its first reaching entry set it to
   * true, only a later disabled entry of that name resets it.
   */
  ghost predicate FirstReachAvailability(clusters: seq<ClusterInfo>, connect: nat -> string -> Connection, k: nat, s: Scan) {
    forall i :: 0 <= i < k && FirstToReach(clusters, connect, i) ==>
      clusters[i].name in s.availability &&
      (s.availability[clusters[i].name] <==> EnabledBetween(clusters, i + 1, k, clusters[i].name))
  }

  ghost predicate ScanInvariant(clusters: seq<ClusterInfo>, connect: nat -> string -> Connection, k: nat, s: Scan) {
    && AvailabilityKeys(clusters, k, s)
    && ClientKeys(clusters, connect, k, s)
    && AvailableHasClient(s)
    && FirstReachOwns(clusters, connect, k, s)
    && ActiveIsAvailable(clusters, k, s)
    && FirstReachAvailability(clusters, connect, k, s)
  }

  lemma AvailabilityKeysStep(clusters: seq<ClusterInfo>, connect: nat -> string -> Connection, k: nat, s: Scan)
    requires 0 < k <= |clusters|
    requires AvailabilityKeys(clusters, k - 1, s) && ClientKeys(clusters, connect, k - 1, s)
    ensures AvailabilityKeys(clusters, k, ScanEntry(s, k - 1, clusters[k - 1], connect))
  {
    var e := clusters[k - 1];
    var s' := ScanEntry(s, k - 1, e, connect);
    forall n
      ensures n in s'.availability <==> n != "" && NamedBefore(clusters, k, n)
    {
      if n == e.name && n != "" {
        assert NamedBefore(clusters, k, n);
        if n in s.clients {
          var i :| 0 <= i < k - 1 && i < |clusters| && clusters[i].name == n && Reaches(connect, i, clusters[i]);
          assert NamedBefore(clusters, k - 1, n);
        }
      }
      if n != e.name && NamedBefore(clusters, k, n) {
        var i :| 0 <= i < k && i < |clusters| && clusters[i].name == n;
        assert NamedBefore(clusters, k - 1, n);
      }
      if NamedBefore(clusters, k - 1, n) {
        assert NamedBefore(clusters, k, n);
      }
    }
  }

  lemma ClientKeysStep(clusters: seq<ClusterInfo>, connect: nat -> string -> Connection, k: nat, s: Scan)
    requires 0 < k <= |clusters| && ClientKeys(clusters, connect, k - 1, s)
    ensures ClientKeys(clusters, connect, k, ScanEntry(s, k - 1, clusters[k - 1], connect))
  {
    var e := clusters[k - 1];
    var s' := ScanEntry(s, k - 1, e, connect);
    forall n
      ensures n in s'.clients <==> ReachedBefore(clusters, connect, k, n)
    {
      if ReachedBefore(clusters, connect, k, n) && !ReachedBefore(clusters, connect, k - 1, n) {
        var i :| 0 <= i < k && i < |clusters| && clusters[i].name == n && Reaches(connect, i, clusters[i]);
        assert i == k - 1;
      }
      if n == e.name && Reaches(connect, k - 1, e) {
        assert ReachedBefore(clusters, connect, k, n);
      }
    }
  }

  lemma FirstReachOwnsStep(clusters: seq<ClusterInfo>, connect: nat -> string -> Connection, k: nat, s: Scan)
    requires 0 < k <= |clusters|
    requires ClientKeys(clusters, connect, k - 1, s) && FirstReachOwns(clusters, connect, k - 1, s)
    ensures FirstReachOwns(clusters, connect, k, ScanEntry(s, k - 1, clusters[k - 1], connect))
  {
    var e := clusters[k - 1];
    var s' := ScanEntry(s, k - 1, e, connect);
    forall i | 0 <= i < k && FirstToReach(clusters, connect, i)
      ensures clusters[i].name in s'.clients && s'.clients[clusters[i].name] == Probe(connect, i, clusters[i]).client
    {
      if i == k - 1 {
        assert !ReachedBefore(clusters, connect, k - 1, e.name);
      }
    }
  }

  lemma ActiveIsAvailableStep(clusters: seq<ClusterInfo>, connect: nat -> string -> Connection, k: nat, s: Scan)
    requires 0 < k <= |clusters|
    requires ClientKeys(clusters, connect, k - 1, s) && ActiveIsAvailable(clusters, k - 1, s)
    ensures ActiveIsAvailable(clusters, k, ScanEntry(s, k - 1, clusters[k - 1], connect))
  {
    var s' := ScanEntry(s, k - 1, clusters[k - 1], connect);
    forall n | n in s'.clients && ActiveBefore(clusters, k, n)
      ensures n in s'.availability && s'.availability[n]
    {
      assert ActiveBefore(clusters, k - 1, n);
    }
  }

  lemma EnabledBetweenExtend(clusters: seq<ClusterInfo>, lo: int, k: nat, name: string)
    requires 0 <= lo < k <= |clusters|
    ensures EnabledBetween(clusters, lo, k, name) <==>
              EnabledBetween(clusters, lo, k - 1, name) && (clusters[k - 1].name == name ==> clusters[k - 1].isActive)
  {
  }

  /** The bit of a name whose first reaching entry came before the new entry. */
  lemma EarlierReachAvailability(clusters: seq<ClusterInfo>, connect: nat -> string -> Connection, k: nat, s: Scan, i: nat)
    requires i < k - 1 && k <= |clusters| && FirstToReach(clusters, connect, i)
    requires ClientKeys(clusters, connect, k - 1, s) && FirstReachAvailability(clusters, connect, k - 1, s)
    ensures clusters[i].name in ScanEntry(s, k - 1, clusters[k - 1], connect).availability
    ensures ScanEntry(s, k - 1, clusters[k - 1], connect).availability[clusters[i].name] <==>
              EnabledBetween(clusters, i + 1, k, clusters[i].name)
  {
    var n := clusters[i].name;
    var e := clusters[k - 1];
    assert ReachedBefore(clusters, connect, k - 1, n);
    assert n in s.clients && n in s.availability;
    assert s.availability[n] <==> EnabledBetween(clusters, i + 1, k - 1, n);
    EnabledBetweenExtend(clusters, i + 1, k, n);
  }

  /** The bit of a name whose first reaching entry is the new entry. */
  lemma NewReachAvailability(clusters: seq<ClusterInfo>, connect: nat -> string -> Connection, k: nat, s: Scan)
    requires 0 < k <= |clusters| && FirstToReach(clusters, connect, k - 1)
    requires ClientKeys(clusters, connect, k - 1, s)
    ensures clusters[k - 1].name in ScanEntry(s, k - 1, clusters[k - 1], connect).availability
    ensures ScanEntry(s, k - 1, clusters[k - 1], connect).availability[clusters[k - 1].name]
  {
    var e := clusters[k - 1];
    assert !ReachedBefore(clusters, connect, k - 1, e.name);
    assert e.name !in s.clients;
  }

  lemma FirstReachAvailabilityStep(clusters: seq<ClusterInfo>, connect: nat -> string -> Connection, k: nat, s: Scan)
    requires 0 < k <= |clusters|
    requires ClientKeys(clusters, connect, k - 1, s) && FirstReachAvailability(clusters, connect, k - 1, s)
    ensures FirstReachAvailability(clusters, connect, k, ScanEntry(s, k - 1, clusters[k - 1], connect))
  {
    var s' := ScanEntry(s, k - 1, clusters[k - 1], connect);
    forall i | 0 <= i < k && FirstToReach(clusters, connect, i)
      ensures clusters[i].name in s'.availability &&
              (s'.availability[clusters[i].name] <==> EnabledBetween(clusters, i + 1, k, clusters[i].name))
    {
      if i == k - 1 {
        NewReachAvailability(clusters, connect, k, s);
      } else {
        EarlierReachAvailability(clusters, connect, k, s, i);
      }
    }
  }

  lemma {:induction false} ScanFacts(clusters: seq<ClusterInfo>, connect: nat -> string -> Connection, k: nat)
    requires k <= |clusters|
    ensures ScanInvariant(clusters, connect, k, ScanPrefix(clusters, connect, k))
  {
    if k > 0 {
      ScanFacts(clusters, connect, k - 1);
      var s := ScanPrefix(clusters, connect, k - 1);
      AvailabilityKeysStep(clusters, connect, k, s);
      ClientKeysStep(clusters, connect, k, s);
      FirstReachOwnsStep(clusters, connect, k, s);
      ActiveIsAvailableStep(clusters, connect, k, s);
      FirstReachAvailabilityStep(clusters, connect, k, s);
    }
  }

  /**
   * `NewClusterManager`: the startup loop over the configured clusters, then the choice of
   * the active pair from the configured `ActiveCluster`. `connect(i)` is the probe of the
   * entry at position `i` of the list.
   */
  function NewClusterManager(doc: Document, connect: nat -> string -> Connection): (r: Startup)
    ensures r.manager.doc == doc && r.manager.saved == doc
    // Every named entry gets an availability bit; unnamed entries get none.
    ensures forall n :: n in r.availability <==> n != "" && Configured(doc.clusters, n)
    // A name has a client exactly when one of its enabled entries reached its cluster ...
    ensures forall n :: n in r.manager.clients <==>
              exists i :: 0 <= i < |doc.clusters| && doc.clusters[i].name == n && Reaches(connect, i, doc.clusters[i])
    // ... and it is the client of the first such entry: later duplicates are ignored.
    ensures forall i :: FirstToReach(doc.clusters, connect, i) ==>
              doc.clusters[i].name in r.manager.clients &&
              r.manager.clients[doc.clusters[i].name] == Probe(connect, i, doc.clusters[i]).client
    // A name reported available has a client; a name that has a client and no disabled
    // entry is reported available.
    ensures forall n :: n in r.availability && r.availability[n] ==> n in r.manager.clients
    ensures forall n :: n in r.manager.clients && ActiveBefore(doc.clusters, |doc.clusters|, n) ==>
              n in r.availability && r.availability[n]
    // Exactly: a registered name is available when no disabled entry of that name follows
    // the entry whose client was kept.
    ensures forall i :: FirstToReach(doc.clusters, connect, i) ==>
              doc.clusters[i].name in r.availability &&
              (r.availability[doc.clusters[i].name] <==>
                 forall j :: i < j < |doc.clusters| && doc.clusters[j].name == doc.clusters[i].name ==>
                   doc.clusters[j].isActive)
    // The active pair is the configured ActiveCluster when it has a usable client, and
    // unset otherwise: there is no fallback to another cluster.
    ensures r.manager.active.Some? <==>
              doc.activeCluster != "" && doc.activeCluster in r.manager.clients &&
              r.manager.clients[doc.activeCluster].hasClientset
    ensures r.manager.active.Some? ==>
              r.manager.activeName == doc.activeCluster && r.manager.active.value == r.manager.clients[doc.activeCluster]
    ensures r.manager.active.None? ==> r.manager.activeName == ""
  {
    ScanFacts(doc.clusters, connect, |doc.clusters|);
    var s := ScanPrefix(doc.clusters, connect, |doc.clusters|);
    var preferred := doc.activeCluster;
    if preferred != "" && preferred in s.clients && s.clients[preferred].hasClientset then
      Startup(Manager(doc, doc, s.clients, preferred, Some(s.clients[preferred])), s.availability)
    else
      Startup(Manager(doc, doc, s.clients, "", None), s.availability)
  }

  // ---------------------------------------------------------------------------
  // Lookups
  // ---------------------------------------------------------------------------

  /** Why a name has no client: decided by the first entry with that name. */
  function MissingClientError(clusters: seq<ClusterInfo>, name: string): ManagerError {
    match IndexOf(clusters, name)
    case None => NotConfigured(name)
    case Some(i) => if clusters[i].isActive then Unavailable(name) else Inactive(name)
  }

  /** `GetClient`: a map lookup, with three distinct failures for a missing name. */
  function GetClient(m: Manager, name: string): (r: Result<Client, ManagerError>)
    ensures r.Ok? <==> name in m.clients
    ensures r.Ok? ==> r.value == m.clients[name]
    ensures r == Err(NotConfigured(name)) <==> name !in m.clients && !Configured(m.doc.clusters, name)
    ensures r == Err(Inactive(name)) <==>
              name !in m.clients && exists i :: FirstEntryAt(m.doc.clusters, name, i) && !m.doc.clusters[i].isActive
    ensures r == Err(Unavailable(name)) <==>
              name !in m.clients && exists i :: FirstEntryAt(m.doc.clusters, name, i) && m.doc.clusters[i].isActive
  {
    if name in m.clients then Ok(m.clients[name])
    else Err(MissingClientError(m.doc.clusters, name))
  }

  /** `GetActiveClient`: the active client, or an error saying whether one was expected. */
  function GetActiveClient(m: Manager): (r: Result<Client, ManagerError>)
    ensures r.Ok? <==> m.active.Some?
    ensures r.Ok? ==> r.value == m.active.value
    ensures m.active.None? && m.doc.activeCluster != "" ==> r == Err(ActiveClusterUnavailable(m.doc.activeCluster))
    ensures m.active.None? && m.doc.activeCluster == "" ==> r == Err(NoActiveCluster)
  {
    match m.active
    case Some(c) => Ok(c)
    case None =>
      if m.doc.activeCluster != "" then Err(ActiveClusterUnavailable(m.doc.activeCluster))
      else Err(NoActiveCluster)
  }

  /** `GetClusterConfiguration`: the first entry with that name. */
  function GetClusterConfiguration(m: Manager, name: string): (r: Result<ClusterInfo, ManagerError>)
    ensures r.Ok? <==> Configured(m.doc.clusters, name)
    ensures r.Ok? ==> exists i :: FirstEntryAt(m.doc.clusters, name, i) && r.value == m.doc.clusters[i]
    ensures r.Err? ==> r.error == NotConfigured(name)
  {
    match IndexOf(m.doc.clusters, name)
    case None => Err(NotConfigured(name))
    case Some(i) => Ok(m.doc.clusters[i])
  }

  /** `ListClusterConfigurations`: a snapshot of the in-memory list, in order. */
  function ListClusterConfigurations(m: Manager): (r: seq<ClusterInfo>)
    ensures |r| == |m.doc.clusters|
    ensures forall i :: 0 <= i < |r| ==> r[i] == m.doc.clusters[i]
    ensures forall n :: GetClusterConfiguration(m, n).Ok? <==> Configured(r, n)
    ensures forall i :: 0 <= i < |r| && FirstEntryAt(r, r[i].name, i) ==> GetClusterConfiguration(m, r[i].name) == Ok(r[i])
  {
    m.doc.clusters
  }

  /** `GetAllClients`: a snapshot of the clients map; it holds exactly what `GetClient` finds. */
  function GetAllClients(m: Manager): (r: map<string, Client>)
    ensures forall n :: n in r <==> GetClient(m, n).Ok?
    ensures forall n :: n in r ==> GetClient(m, n) == Ok(r[n])
  {
    m.clients
  }

  /**
   * `GetAvailableClientNames`: every name that has a client, each once. Go's map iteration
   * order is unspecified, so the order here is an arbitrary one.
   */
  method GetAvailableClientNames(m: Manager) returns (names: seq<string>)
    ensures forall n :: n in names <==> n in m.clients
    ensures forall i, j :: 0 <= i < j < |names| ==> names[i] != names[j]
  {
    names := [];
    var rest := m.clients.Keys;
    while rest != {}
      invariant rest <= m.clients.Keys
      invariant forall n :: n in names <==> n in m.clients && n !in rest
      invariant forall i, j :: 0 <= i < j < |names| ==> names[i] != names[j]
      decreases rest
    {
      var n :| n in rest;
      names := names + [n];
      rest := rest - {n};
    }
  }

  // ---------------------------------------------------------------------------
  // Switching the active cluster
  // ---------------------------------------------------------------------------

  /** The name has a client with a Clientset: what `SetActiveCluster` accepts. */
  predicate Switchable(m: Manager, name: string) {
    name in m.clients && m.clients[name].hasClientset
  }

  /**
   * `SetActiveCluster`: switch the active pair and the persisted `ActiveCluster` to `name`.
   * A failed save is reported but not undone.
   */
  function SetActiveCluster(m: Manager, name: string, save: SaveResult): (r: Step)
    // Rejections name the same reason `GetClient` gives, and change nothing.
    ensures name !in m.clients ==> r == Step(m, Failed(GetClient(m, name).error))
    ensures name in m.clients && !m.clients[name].hasClientset ==> r == Step(m, Failed(InvalidClient(name)))
    // Acceptance moves all three to the target; nothing else changes.
    ensures Switchable(m, name) ==>
              && r.next.activeName == name && r.next.active == Some(m.clients[name])
              && r.next.doc.activeCluster == name
              && r.next.doc.clusters == m.doc.clusters && r.next.clients == m.clients
    ensures Switchable(m, name) && save.Saved? ==> r.status == Done && r.next.saved == r.next.doc
    ensures Switchable(m, name) && save.SaveFailed? ==>
              r.status == Failed(SwitchedButNotSaved(name)) && r.next.saved == m.saved
  {
    if name !in m.clients then Step(m, Failed(MissingClientError(m.doc.clusters, name)))
    else
      var client := m.clients[name];
      if !client.hasClientset then Step(m, Failed(InvalidClient(name)))
      else
        var doc := m.doc.(activeCluster := name);
        var switched := m.(doc := doc, activeName := name, active := Some(client));
        if save.Saved? then Step(switched.(saved := doc), Done)
        else Step(switched, Failed(SwitchedButNotSaved(name)))
  }

  // ---------------------------------------------------------------------------
  // Adding, updating and removing clusters
  // ---------------------------------------------------------------------------

  /**
   * `AddCluster`: validate the name, append and save (restoring the list if the save
   * fails), then build a client for an enabled entry.
   */
  function AddCluster(m: Manager, info: ClusterInfo, connect: string -> Connection, save: SaveResult): (r: Step)
    ensures Configured(m.doc.clusters, info.name) ==> r == Step(m, Failed(AlreadyConfigured(info.name)))
    ensures !Configured(m.doc.clusters, info.name) && info.name in m.clients ==>
              r == Step(m, Failed(AlreadyLoaded(info.name)))
    ensures !Configured(m.doc.clusters, info.name) && info.name !in m.clients && save.SaveFailed? ==>
              r == Step(m, Failed(PersistFailed(info.name)))
    ensures r.status.Failed? ==> r.next == m
    ensures r.status == Done <==> !Configured(m.doc.clusters, info.name) && info.name !in m.clients && save.Saved?
    ensures r.status == Done ==>
              r.next.doc == m.doc.(clusters := m.doc.clusters + [info]) && r.next.saved == r.next.doc
    // A client is added only for an enabled entry whose client answered, and it is that client.
    ensures r.status == Done ==>
              (info.name in r.next.clients <==> info.isActive && connect(EffectivePath(info.configPath)).Reachable?)
    ensures r.status == Done && info.name in r.next.clients ==>
              r.next.clients[info.name] == connect(EffectivePath(info.configPath)).client
    ensures r.status == Done ==> r.next.clients - {info.name} == m.clients
    // The new cluster becomes active only when nothing was active and it is the configured one.
    ensures r.status == Done ==>
              (r.next.active != m.active <==>
                 m.active.None? && info.name in r.next.clients && info.name == m.doc.activeCluster)
    ensures r.status == Done && r.next.active != m.active ==>
              r.next.activeName == info.name && r.next.active == Some(r.next.clients[info.name])
    ensures r.status == Done && r.next.active == m.active ==> r.next.activeName == m.activeName
  {
    if Configured(m.doc.clusters, info.name) then Step(m, Failed(AlreadyConfigured(info.name)))
    else if info.name in m.clients then Step(m, Failed(AlreadyLoaded(info.name)))
    else if save.SaveFailed? then Step(m, Failed(PersistFailed(info.name)))
    else
      var doc := m.doc.(clusters := m.doc.clusters + [info]);
      var appended := m.(doc := doc, saved := doc);
      var rep := InitializeSingleClient(info.configPath, connect);
      if !info.isActive || !rep.available then Step(appended, Done)
      else
        var client := rep.client.value;
        var loaded := appended.(clients := m.clients[info.name := client]);
        if m.active.None? && info.name == doc.activeCluster then
          Step(loaded.(activeName := info.name, active := Some(client)), Done)
        else
          Step(loaded, Done)
  }

  /**
   * The body of `UpdateCluster`, with the "was the target active" test as a parameter:
   * the code computes it as `activeClientName == clusterName`.
   */
  function UpdateClusterWith(m: Manager, name: string, info: ClusterInfo, wasActive: bool,
                             connect: string -> Connection, save: SaveResult): Step
  {
    if info.name != name && info.name != "" then Step(m, Failed(RenameRejected(name, info.name)))
    else
      var updated := info.(name := name);
      match IndexOf(m.doc.clusters, name)
      case None => Step(m, Failed(NotConfigured(name)))
      case Some(i) =>
        var clearsPreferred := wasActive && !updated.isActive;
        if save.SaveFailed? then
          // The entry is put back; the preferred name is put back as `name`.
          var restored := if clearsPreferred then name else m.doc.activeCluster;
          Step(m.(doc := m.doc.(activeCluster := restored)), Failed(PersistFailed(name)))
        else
          var doc := Document(m.doc.clusters[i := updated], if clearsPreferred then "" else m.doc.activeCluster);
          var dropped := Manager(doc, doc, m.clients - {name},
                                 if wasActive then "" else m.activeName,
                                 if wasActive then None else m.active);
          var rep := InitializeSingleClient(updated.configPath, connect);
          if !updated.isActive || !rep.available then Step(dropped, Done)
          else
            var client := rep.client.value;
            var loaded := dropped.(clients := dropped.clients[name := client]);
            if name == doc.activeCluster then Step(loaded.(activeName := name, active := Some(client)), Done)
            else Step(loaded, Done)
  }

  /**
   * `UpdateCluster`: replace the first entry called `name` (the name cannot change), save,
   * then always drop the old client and build a new one for an enabled entry.
   */
  function UpdateCluster(m: Manager, name: string, info: ClusterInfo,
                         connect: string -> Connection, save: SaveResult): (r: Step)
    ensures info.name != name && info.name != "" ==> r == Step(m, Failed(RenameRejected(name, info.name)))
    ensures (info.name == name || info.name == "") && !Configured(m.doc.clusters, name) ==>
              r == Step(m, Failed(NotConfigured(name)))
    ensures r.status == Done <==> (info.name == name || info.name == "") && Configured(m.doc.clusters, name) && save.Saved?
    // A failed save puts the entry back and changes nothing else, except that the preferred
    // name is written back as `name` when the update had cleared it.
    ensures r.status.Failed? ==>
              && r.next.doc.clusters == m.doc.clusters && r.next.saved == m.saved && r.next.clients == m.clients
              && r.next.activeName == m.activeName && r.next.active == m.active
    ensures r.status.Failed? && r.next.doc.activeCluster != m.doc.activeCluster ==>
              m.activeName == name && !info.isActive && r.next.doc.activeCluster == name
    ensures r.status.Failed? && (info.name == name || info.name == "") && Configured(m.doc.clusters, name) ==>
              r.status == Failed(PersistFailed(name)) &&
              r.next.doc.activeCluster == (if m.activeName == name && !info.isActive then name else m.doc.activeCluster)
    // On success the first entry called `name` is replaced, with `name` filled in.
    ensures r.status == Done ==>
              exists i :: FirstEntryAt(m.doc.clusters, name, i) &&
                          r.next.doc.clusters == m.doc.clusters[i := info.(name := name)]
    ensures r.status == Done ==> r.next.saved == r.next.doc
    ensures r.status == Done ==>
              r.next.doc.activeCluster == (if m.activeName == name && !info.isActive then "" else m.doc.activeCluster)
    // The old client is always dropped; a client under `name` afterwards is the new one.
    ensures r.status == Done ==>
              (name in r.next.clients <==> info.isActive && connect(EffectivePath(info.configPath)).Reachable?)
    ensures r.status == Done && name in r.next.clients ==>
              r.next.clients[name] == connect(EffectivePath(info.configPath)).client
    ensures r.status == Done ==> r.next.clients - {name} == m.clients - {name}
    // The active pair: cleared if the target was active, and set to the target only when
    // its new client is loaded and it is the preferred name.
    ensures r.status == Done && m.activeName == name ==>
              (r.next.active.Some? <==> name in r.next.clients && name == r.next.doc.activeCluster)
    ensures r.status == Done && m.activeName == name ==>
              r.next.activeName == (if r.next.active.Some? then name else "") &&
              (r.next.active.Some? ==> name in r.next.clients && r.next.active.value == r.next.clients[name])
    ensures r.status == Done && r.next.active.Some? && r.next.activeName == name ==>
              name in r.next.clients && r.next.active.value == r.next.clients[name]
    // Any other target becomes active exactly when its new client loads and it is the
    // preferred name; otherwise the active pair is kept.
    ensures r.status == Done && m.activeName != name && name in r.next.clients && name == r.next.doc.activeCluster ==>
              r.next.activeName == name && r.next.active == Some(r.next.clients[name])
    ensures r.status == Done && m.activeName != name && !(name in r.next.clients && name == r.next.doc.activeCluster) ==>
              r.next.activeName == m.activeName && r.next.active == m.active
  {
    UpdateClusterWith(m, name, info, m.activeName == name, connect, save)
  }

  /**
   * The body of `RemoveCluster`, with the "was the target active" test as a parameter:
   * the code computes it as `activeClientName == clusterName`.
   */
  function RemoveClusterWith(m: Manager, name: string, wasActive: bool, save: SaveResult): Step {
    if !Configured(m.doc.clusters, name) then Step(m, Failed(NotConfigured(name)))
    else if save.SaveFailed? then Step(m, Failed(PersistFailed(name)))
    else
      var doc := Document(Without(m.doc.clusters, name), if wasActive then "" else m.doc.activeCluster);
      Step(Manager(doc, doc, m.clients - {name},
                   if wasActive then "" else m.activeName,
                   if wasActive then None else m.active),
           Done)
  }

  /**
   * `RemoveCluster`: drop every entry called `name`, save (restoring list and preferred name
   * if the save fails), then drop its client and, if it was active, the active pair.
   */
  function RemoveCluster(m: Manager, name: string, save: SaveResult): (r: Step)
    ensures !Configured(m.doc.clusters, name) ==> r == Step(m, Failed(NotConfigured(name)))
    ensures Configured(m.doc.clusters, name) && save.SaveFailed? ==> r == Step(m, Failed(PersistFailed(name)))
    ensures r.status == Done <==> Configured(m.doc.clusters, name) && save.Saved?
    ensures r.status == Done ==>
              && !Configured(r.next.doc.clusters, name)
              && (forall c :: c in r.next.doc.clusters <==> c in m.doc.clusters && c.name != name)
              && r.next.doc.clusters == Without(m.doc.clusters, name)
              && r.next.saved == r.next.doc
    ensures r.status == Done ==> r.next.clients == m.clients - {name}
    ensures r.status == Done && m.activeName == name ==>
              r.next.active.None? && r.next.activeName == "" && r.next.doc.activeCluster == ""
    ensures r.status == Done && m.activeName != name ==>
              r.next.active == m.active && r.next.activeName == m.activeName &&
              r.next.doc.activeCluster == m.doc.activeCluster
  {
    RemoveClusterWith(m, name, m.activeName == name, save)
  }
}

=== FILE: configs.dfy ===
/**
 * The configuration document (configs/config.go): its shape, the checks `Load`
 * makes before reading a file, and the defaulting pass applied after parsing.
 * The process environment and the home directory lookup are inputs.
 */
module Configs {
  import opened Base
  import Paths

  /** One entry of the `clusters` list. */
  datatype ClusterInfo = ClusterInfo(name: string, configPath: string, isActive: bool)

  datatype ServerConfig = ServerConfig(
    port: string,
    readTimeout: int,
    writeTimeout: int,
    mode: string,
    activeCluster: string)

  datatype KubernetesConfig = KubernetesConfig(kubeconfig: string)

  datatype InstallerConfig = InstallerConfig(minikubePath: string, minikubeDriver: string, downloadDir: string)

  datatype DatabaseConfig = DatabaseConfig(
    enabled: bool,
    host: string,
    port: int,
    username: string,
    password: string,
    database: string,
    charset: string)

  /** `expireDuration` is a Go time.Duration, counted in nanoseconds. */
  datatype JwtConfig = JwtConfig(secretKey: string, expireDuration: int, issuer: string)

  datatype Config = Config(
    server: ServerConfig,
    kubernetes: KubernetesConfig,
    installer: InstallerConfig,
    database: DatabaseConfig,
    jwt: JwtConfig,
    clusters: seq<ClusterInfo>)

  /**
   * What `setDefaults` reads from the process: the JWT_SECRET and KUBECONFIG
   * variables ("" when unset, as os.Getenv reports) and os.UserHomeDir (None on error).
   */
  datatype Environment = Environment(jwtSecret: string, kubeconfig: string, home: Option<string>)

  const DefaultPort := "8080"
  const DefaultMode := "debug"
  const DefaultTimeoutSeconds := 30
  const DefaultDatabaseHost := "localhost"
  const DefaultDatabasePort := 3306
  const DefaultDatabaseUser := "root"
  const DefaultDatabaseName := "cilikube"
  const DefaultDatabasePassword := "cilikube-password-change-in-production"
  const DefaultCharset := "utf8mb4"
  const FallbackJwtSecret := "cilikube-secret-key-change-in-production"
  const Hour := 3_600_000_000_000
  const DefaultExpireDuration := 24 * Hour
  const DefaultIssuer := "cilikube"
  const DefaultDriver := "docker"
  const DefaultDownloadDir := "."
  const DefaultKubeconfigName := "default"
  const KubeconfigInHome := ".kube/config"

  function OrDefault(s: string, d: string): string {
    if s == "" then d else s
  }

  function OrDefaultNumber(n: int, d: int): int {
    if n == 0 then d else n
  }

  /** The kubeconfig value is a placeholder that the defaulting pass resolves. */
  predicate NeedsKubeconfig(kubeconfig: string) {
    kubeconfig == "" || kubeconfig == DefaultKubeconfigName
  }

  /** Resolution of the top-level kubeconfig: KUBECONFIG first, then ~/.kube/config, then "". */
  function ResolveKubeconfig(kubeconfig: string, env: Environment): (r: string)
    ensures !NeedsKubeconfig(kubeconfig) ==> r == kubeconfig
    ensures NeedsKubeconfig(kubeconfig) && env.kubeconfig != "" ==> r == env.kubeconfig
    ensures NeedsKubeconfig(kubeconfig) && env.kubeconfig == "" && env.home.Some? ==>
              r == Paths.Join(env.home.value, KubeconfigInHome)
    ensures NeedsKubeconfig(kubeconfig) && env.kubeconfig == "" && env.home.None? ==> r == ""
    ensures NeedsKubeconfig(r) ==> r == "" || r == env.kubeconfig
  {
    if !NeedsKubeconfig(kubeconfig) then kubeconfig
    else if env.kubeconfig != "" then env.kubeconfig
    else if env.home.Some? then Paths.Join(env.home.value, KubeconfigInHome)
    else ""
  }

  /** Every field that `setDefaults` fills unconditionally is non-zero, and so are the
      database name and password when the database is enabled. */
  predicate Filled(c: Config) {
    && c.server.port != "" && c.server.mode != ""
    && c.server.readTimeout != 0 && c.server.writeTimeout != 0
    && c.database.host != "" && c.database.port != 0
    && c.database.username != "" && c.database.charset != ""
    && (c.database.enabled ==> c.database.database != "" && c.database.password != "")
    && c.jwt.secretKey != "" && c.jwt.expireDuration != 0 && c.jwt.issuer != ""
    && c.installer.minikubeDriver != "" && c.installer.downloadDir != ""
  }

  /** `setDefaults`: fill every zero-valued field with its fixed default. */
  function SetDefaults(c: Config, env: Environment): (r: Config)
    // The fields setDefaults never writes.
    ensures r.clusters == c.clusters
    ensures r.server.activeCluster == c.server.activeCluster
    ensures r.installer.minikubePath == c.installer.minikubePath
    ensures r.database.enabled == c.database.enabled
    // Afterwards every defaulted field is set, and a field that was already set is kept.
    ensures Filled(r)
    ensures c.server.port != "" ==> r.server.port == c.server.port
    ensures c.server.port == "" ==> r.server.port == DefaultPort
    ensures c.server.mode != "" ==> r.server.mode == c.server.mode
    ensures c.server.mode == "" ==> r.server.mode == DefaultMode
    ensures c.server.readTimeout != 0 ==> r.server.readTimeout == c.server.readTimeout
    ensures c.server.readTimeout == 0 ==> r.server.readTimeout == DefaultTimeoutSeconds
    ensures c.server.writeTimeout != 0 ==> r.server.writeTimeout == c.server.writeTimeout
    ensures c.server.writeTimeout == 0 ==> r.server.writeTimeout == DefaultTimeoutSeconds
    ensures c.database.host != "" ==> r.database.host == c.database.host
    ensures c.database.host == "" ==> r.database.host == DefaultDatabaseHost
    ensures c.database.port != 0 ==> r.database.port == c.database.port
    ensures c.database.port == 0 ==> r.database.port == DefaultDatabasePort
    ensures c.database.username != "" ==> r.database.username == c.database.username
    ensures c.database.username == "" ==> r.database.username == DefaultDatabaseUser
    ensures c.database.charset != "" ==> r.database.charset == c.database.charset
    ensures c.database.charset == "" ==> r.database.charset == DefaultCharset
    // Database name and password are only defaulted when the database is enabled.
    ensures !c.database.enabled || c.database.database != "" ==> r.database.database == c.database.database
    ensures c.database.enabled && c.database.database == "" ==> r.database.database == DefaultDatabaseName
    ensures !c.database.enabled || c.database.password != "" ==> r.database.password == c.database.password
    ensures c.database.enabled && c.database.password == "" ==> r.database.password == DefaultDatabasePassword
    // The JWT secret comes from the configuration, else JWT_SECRET, else a fixed fallback.
    ensures c.jwt.secretKey != "" ==> r.jwt.secretKey == c.jwt.secretKey
    ensures c.jwt.secretKey == "" && env.jwtSecret != "" ==> r.jwt.secretKey == env.jwtSecret
    ensures c.jwt.secretKey == "" && env.jwtSecret == "" ==> r.jwt.secretKey == FallbackJwtSecret
    ensures c.jwt.expireDuration != 0 ==> r.jwt.expireDuration == c.jwt.expireDuration
    ensures c.jwt.expireDuration == 0 ==> r.jwt.expireDuration == DefaultExpireDuration
    ensures c.jwt.issuer != "" ==> r.jwt.issuer == c.jwt.issuer
    ensures c.jwt.issuer == "" ==> r.jwt.issuer == DefaultIssuer
    ensures c.installer.minikubeDriver != "" ==> r.installer.minikubeDriver == c.installer.minikubeDriver
    ensures c.installer.minikubeDriver == "" ==> r.installer.minikubeDriver == DefaultDriver
    ensures c.installer.downloadDir != "" ==> r.installer.downloadDir == c.installer.downloadDir
    ensures c.installer.downloadDir == "" ==> r.installer.downloadDir == DefaultDownloadDir
    ensures r.kubernetes.kubeconfig == ResolveKubeconfig(c.kubernetes.kubeconfig, env)
  {
    // The unconditional database defaults (host, port, user, charset) run first, so the
    // repeated ones under `Enabled` only ever add the database name and password.
    var database := c.database.(
      host := OrDefault(c.database.host, DefaultDatabaseHost),
      port := OrDefaultNumber(c.database.port, DefaultDatabasePort),
      username := OrDefault(c.database.username, DefaultDatabaseUser),
      charset := OrDefault(c.database.charset, DefaultCharset));
    var database := if !database.enabled then database
      else database.(
        database := OrDefault(database.database, DefaultDatabaseName),
        password := OrDefault(database.password, DefaultDatabasePassword));
    c.(
      server := c.server.(
        port := OrDefault(c.server.port, DefaultPort),
        mode := OrDefault(c.server.mode, DefaultMode),
        readTimeout := OrDefaultNumber(c.server.readTimeout, DefaultTimeoutSeconds),
        writeTimeout := OrDefaultNumber(c.server.writeTimeout, DefaultTimeoutSeconds)),
      database := database,
      jwt := c.jwt.(
        secretKey := OrDefault(c.jwt.secretKey, OrDefault(env.jwtSecret, FallbackJwtSecret)),
        expireDuration := OrDefaultNumber(c.jwt.expireDuration, DefaultExpireDuration),
        issuer := OrDefault(c.jwt.issuer, DefaultIssuer)),
      installer := c.installer.(
        minikubeDriver := OrDefault(c.installer.minikubeDriver, DefaultDriver),
        downloadDir := OrDefault(c.installer.downloadDir, DefaultDownloadDir)),
      kubernetes := KubernetesConfig(ResolveKubeconfig(c.kubernetes.kubeconfig, env)))
  }

  /** Under the same environment, a second defaulting pass changes nothing. */
  lemma SetDefaultsIdempotent(c: Config, env: Environment)
    ensures SetDefaults(SetDefaults(c, env), env) == SetDefaults(c, env)
  {
  }

  /** A configuration that already has every field set is left exactly as it is. */
  lemma SetDefaultsKeepsFilledConfig(c: Config, env: Environment)
    requires Filled(c) && !NeedsKubeconfig(c.kubernetes.kubeconfig)
    ensures SetDefaults(c, env) == c
  {
  }

  /** What happens when the file behind an accepted path is read and parsed. */
  datatype ReadOutcome = FileMissing | ReadFailed | ParseFailed | Parsed(document: Config)

  datatype LoadError =
    | EmptyPath
    | UnsupportedFormat(ext: string)
    | NotFound(path: string)
    | Unreadable(path: string)
    | Malformed

  predicate IsYamlExtension(ext: string) {
    ext == ".yaml" || ext == ".yml"
  }

  /**
   * `Load`: reject an empty path, then any extension other than .yaml/.yml, and only
   * then consult the file; a parsed document is returned after the defaulting pass.
   */
  function Load(path: string, read: ReadOutcome, env: Environment): (r: Result<Config, LoadError>)
    ensures path == "" <==> r == Err(EmptyPath)
    ensures path != "" && !IsYamlExtension(Paths.Ext(path)) ==> r == Err(UnsupportedFormat(Paths.Ext(path)))
    ensures r.Ok? <==> path != "" && IsYamlExtension(Paths.Ext(path)) && read.Parsed?
    ensures r.Ok? ==> r.value == SetDefaults(read.document, env)
    ensures path != "" && IsYamlExtension(Paths.Ext(path)) ==>
              (read == FileMissing ==> r == Err(NotFound(path))) &&
              (read == ReadFailed ==> r == Err(Unreadable(path))) &&
              (read == ParseFailed ==> r == Err(Malformed))
  {
    if path == "" then Err(EmptyPath)
    else
      var ext := Paths.Ext(path);
      if !IsYamlExtension(ext) then Err(UnsupportedFormat(ext))
      else
        match read
        case FileMissing => Err(NotFound(path))
        case ReadFailed => Err(Unreadable(path))
        case ParseFailed => Err(Malformed)
        case Parsed(document) => Ok(SetDefaults(document, env))
  }

  /** The extension check happens before the file is touched: whatever reading would
      have produced, a non-YAML path gets the same answer. */
  lemma LoadChecksExtensionBeforeReading(path: string, read1: ReadOutcome, read2: ReadOutcome, env: Environment)
    requires !IsYamlExtension(Paths.Ext(path))
    ensures Load(path, read1, env) == Load(path, read2, env)
    ensures Load(path, read1, env).Err?
  {
  }

  /** A path that `Load` accepts ends in ".yml" or ".yaml". */
  lemma LoadedPathEndsInYamlSuffix(path: string, read: ReadOutcome, env: Environment)
    requires Load(path, read, env).Ok?
    ensures |path| >= 4 && (path[|path| - 4..] == ".yml" || (|path| >= 5 && path[|path| - 5..] == ".yaml"))
  {
  }
}

=== FILE: kube_requests.dfy ===
/**
 * The Kubernetes API requests the services hand to client-go, and the pre-call rules
 * the services share: how list options are built and how an object submitted under a
 * namespace path is checked and normalised. The API call itself is not modelled.
 */
module KubeRequests {
  import opened Base

  /** Go's `int64`: the type of list limits and watch timeouts. */
  newtype int64 = x: int | -0x8000_0000_0000_0000 <= x < 0x8000_0000_0000_0000

  /** The resource collections the modelled services address. */
  datatype Kind = ConfigMaps | Secrets | PersistentVolumes | Nodes

  datatype Verb = Get | List | Create | Update | Delete | Watch

  /** The fields of `metav1.ListOptions` these services set; zero values mean "unset". */
  datatype ListOptions = ListOptions(
    labelSelector: string,
    limit: int64,
    continueToken: string,
    resourceVersion: string,
    watch: bool,
    timeoutSeconds: Option<int64>)

  const NoListOptions := ListOptions("", 0, "", "", false, None)

  /** An API object: its metadata name and namespace, and the rest of it (the data of a
      ConfigMap or Secret, the spec of a PersistentVolume) as key/value pairs. */
  datatype Object = Object(name: string, namespace: string, content: map<string, string>)

  /**
   * One call into the Kubernetes API: `namespace` is None for a cluster-scoped collection,
   * `name` is empty for collection calls, `body` is the object sent by Create and Update.
   */
  datatype Request = Request(
    verb: Verb,
    kind: Kind,
    namespace: Option<string>,
    name: string,
    options: ListOptions,
    body: Option<Object>)

  /** The service-level `ValidationError`s, returned before any call is made. */
  datatype ValidationError = NamespaceConflict | EmptyName

  // ---------------------------------------------------------------------------
  // List options
  // ---------------------------------------------------------------------------

  /**
   * The options the ConfigMap, Secret and PV `List` build: the label selector when it is
   * non-empty, the limit when it is positive, nothing else.
   */
  function SelectiveListOptions(labelSelector: string, limit: int64): (o: ListOptions)
    ensures o.labelSelector == labelSelector
    ensures limit > 0 ==> o.limit == limit
    ensures limit <= 0 ==> o.limit == 0
    ensures o.limit >= 0
    ensures o.continueToken == "" && o.resourceVersion == "" && !o.watch && o.timeoutSeconds.None?
  {
    var withSelector := if labelSelector != "" then NoListOptions.(labelSelector := labelSelector) else NoListOptions;
    if limit > 0 then withSelector.(limit := limit) else withSelector
  }

  /** Setting the selector only when non-empty is the same as always setting it; only a
      negative limit is dropped rather than passed on. */
  lemma SelectiveOptionsDropOnlyNegativeLimits(labelSelector: string, limit: int64)
    ensures SelectiveListOptions(labelSelector, limit) == NoListOptions.(labelSelector := labelSelector, limit := limit)
            <==> limit >= 0
  {
  }

  // ---------------------------------------------------------------------------
  // Writes under a namespace path
  // ---------------------------------------------------------------------------

  /** The object names a namespace other than the one in the request path. */
  predicate ConflictsWith(pathNamespace: string, obj: Object) {
    obj.namespace != "" && obj.namespace != pathNamespace
  }

  /** What a namespaced write may send: the submitted object moved into the path namespace. */
  ghost predicate SendsInPath(req: Request, verb: Verb, kind: Kind, pathNamespace: string, obj: Object) {
    && req.verb == verb && req.kind == kind
    && req.namespace == Some(pathNamespace)
    && req.name == obj.name
    && req.options == NoListOptions
    && req.body.Some?
    && req.body.value.namespace == pathNamespace
    && req.body.value.name == obj.name
    && req.body.value.content == obj.content
  }

  /**
   * The ConfigMap and Secret `Create` / `Update` checks: a conflicting namespace is
   * rejected first, an empty namespace is filled from the path, then an empty name is
   * rejected; otherwise the object goes to the path namespace.
   */
  function NamespacedWrite(verb: Verb, kind: Kind, pathNamespace: string, obj: Object): (r: Result<Request, ValidationError>)
    ensures r == Err(NamespaceConflict) <==> ConflictsWith(pathNamespace, obj)
    ensures r == Err(EmptyName) <==> !ConflictsWith(pathNamespace, obj) && obj.name == ""
    ensures r.Ok? <==> !ConflictsWith(pathNamespace, obj) && obj.name != ""
    ensures r.Ok? ==> SendsInPath(r.value, verb, kind, pathNamespace, obj)
  {
    if ConflictsWith(pathNamespace, obj) then Err(NamespaceConflict)
    else
      var normalised := if obj.namespace == "" then obj.(namespace := pathNamespace) else obj;
      if normalised.name == "" then Err(EmptyName)
      else Ok(Request(verb, kind, Some(pathNamespace), normalised.name, NoListOptions, Some(normalised)))
  }

  /** Submitting the object that was sent again yields the same request. */
  lemma NamespacedWriteIdempotent(verb: Verb, kind: Kind, pathNamespace: string, obj: Object)
    requires NamespacedWrite(verb, kind, pathNamespace, obj).Ok?
    ensures NamespacedWrite(verb, kind, pathNamespace, NamespacedWrite(verb, kind, pathNamespace, obj).value.body.value)
            == NamespacedWrite(verb, kind, pathNamespace, obj)
  {
  }

  /** The verdict does not depend on the object's content, and an object whose namespace
      is empty or equals the path gets the same verdict either way. */
  lemma NamespacedWriteIgnoresContent(verb: Verb, kind: Kind, pathNamespace: string, a: Object, b: Object)
    requires a.name == b.name
    requires a.namespace in {"", pathNamespace} && b.namespace in {"", pathNamespace}
    ensures NamespacedWrite(verb, kind, pathNamespace, a).Ok? == NamespacedWrite(verb, kind, pathNamespace, b).Ok?
    ensures NamespacedWrite(verb, kind, pathNamespace, a).Ok? ==>
              NamespacedWrite(verb, kind, pathNamespace, a).value.body.value.(content := b.content)
              == NamespacedWrite(verb, kind, pathNamespace, b).value.body.value
  {
  }

  /**
   * The PV `Create` / `Update` checks: an empty name is rejected; otherwise the namespace
   * is cleared, whatever the caller supplied, and the call is cluster-scoped.
   */
  function ClusterScopedWrite(verb: Verb, kind: Kind, obj: Object): (r: Result<Request, ValidationError>)
    ensures r.Err? <==> obj.name == ""
    ensures r.Err? ==> r.error == EmptyName
    ensures r.Ok? ==> r.value.verb == verb && r.value.kind == kind && r.value.namespace.None? &&
                      r.value.body == Some(Object(obj.name, "", obj.content))
  {
    if obj.name == "" then Err(EmptyName)
    else Ok(Request(verb, kind, None, obj.name, NoListOptions, Some(obj.(namespace := ""))))
  }

  /** A cluster-scoped write never reports a namespace conflict, and the namespace an
      object carries never changes what is sent. */
  lemma ClusterScopedWriteIgnoresNamespace(verb: Verb, kind: Kind, obj: Object, namespace: string)
    ensures ClusterScopedWrite(verb, kind, obj) != Err(NamespaceConflict)
    ensures ClusterScopedWrite(verb, kind, obj.(namespace := namespace)) == ClusterScopedWrite(verb, kind, obj)
  {
  }
}

=== FILE: manager_fixes.dfy ===
/**
 * `UpdateCluster` and `RemoveCluster` with the "was the target active" test corrected.
 *
 * pkg/k8s/manager.go computes it as `activeClientName == clusterName`. When no cluster is
 * active `activeClientName` is "", so a call on an entry with an empty name counts as a
 * call on the active cluster: the persisted preferred `ActiveCluster`, which may name a
 * different cluster, is cleared (or, on a failed save, overwritten with ""). The corrected
 * test also requires an active client, which is what the surrounding code assumes.
 */
module ManagerFixes {
  import opened Base
  import opened Configs
  import opened ClusterManager

  /** The target really is the active cluster. */
  predicate TargetIsActive(m: Manager, name: string) {
    m.active.Some? && m.activeName == name
  }

  /** `UpdateCluster` with the corrected test; it agrees with the code everywhere else. */
  function UpdateClusterFixed(m: Manager, name: string, info: ClusterInfo,
                              connect: string -> Connection, save: SaveResult): (r: Step)
    ensures r.status == UpdateCluster(m, name, info, connect, save).status
    ensures r.next.doc.clusters == UpdateCluster(m, name, info, connect, save).next.doc.clusters
    ensures r.next.clients == UpdateCluster(m, name, info, connect, save).next.clients
    // The persisted preference changes only when the active cluster itself is disabled.
    ensures r.status == Done ==>
              r.next.doc.activeCluster == (if TargetIsActive(m, name) && !info.isActive then "" else m.doc.activeCluster)
    ensures r.status.Failed? && r.next.doc.activeCluster != m.doc.activeCluster ==>
              TargetIsActive(m, name) && !info.isActive && r.next.doc.activeCluster == name
    ensures r.status.Failed? ==>
              r.next.doc.clusters == m.doc.clusters && r.next.saved == m.saved && r.next.clients == m.clients &&
              r.next.activeName == m.activeName && r.next.active == m.active
    ensures r.status.Failed? && (info.name == name || info.name == "") && Configured(m.doc.clusters, name) ==>
              r.status == Failed(PersistFailed(name)) &&
              r.next.doc.activeCluster == (if TargetIsActive(m, name) && !info.isActive then name else m.doc.activeCluster)
    // An active target loses the active pair, and gets it back only when its new client is
    // loaded and it is still the preferred name.
    ensures r.status == Done && TargetIsActive(m, name) ==>
              (r.next.active.Some? <==> name in r.next.clients && name == r.next.doc.activeCluster) &&
              r.next.activeName == (if r.next.active.Some? then name else "") &&
              (r.next.active.Some? ==> name in r.next.clients && r.next.active.value == r.next.clients[name])
    // Any other target becomes active exactly when its new client loads and it is the
    // preferred name; otherwise the active pair is kept.
    ensures r.status == Done && !TargetIsActive(m, name) && name in r.next.clients && name == r.next.doc.activeCluster ==>
              r.next.activeName == name && r.next.active == Some(r.next.clients[name])
    ensures r.status == Done && !TargetIsActive(m, name) && !(name in r.next.clients && name == r.next.doc.activeCluster) ==>
              r.next.activeName == m.activeName && r.next.active == m.active
    // A successful update is what gets saved.
    ensures r.status == Done ==> r.next.saved == r.next.doc
    ensures !TargetIsActive(m, name) && r.next.activeName != name ==>
              r.next.activeName == m.activeName && r.next.active == m.active
  {
    UpdateClusterWith(m, name, info, TargetIsActive(m, name), connect, save)
  }

  /** `RemoveCluster` with the corrected test. */
  function RemoveClusterFixed(m: Manager, name: string, save: SaveResult): (r: Step)
    ensures r.status == RemoveCluster(m, name, save).status
    ensures r.next.doc.clusters == RemoveCluster(m, name, save).next.doc.clusters
    ensures r.next.clients == RemoveCluster(m, name, save).next.clients
    ensures r.status.Failed? ==> r.next == m
    ensures r.status == Done ==> r.next.saved == r.next.doc
    ensures r.status == Done ==>
              r.next.doc.activeCluster == (if TargetIsActive(m, name) then "" else m.doc.activeCluster)
    ensures r.status == Done && !TargetIsActive(m, name) ==>
              r.next.activeName == m.activeName && r.next.active == m.active
    ensures r.status == Done && TargetIsActive(m, name) ==> r.next.active.None? && r.next.activeName == ""
  {
    RemoveClusterWith(m, name, TargetIsActive(m, name), save)
  }

  // ---------------------------------------------------------------------------
  // The discrepancy, on a state that startup produces
  // ---------------------------------------------------------------------------

  /** A configuration with an unnamed entry and preferred cluster "a". */
  const WitnessDoc := Document([ClusterInfo("", "p", true), ClusterInfo("a", "q", true)], "a")

  /** Startup when no cluster can be reached: nothing is active. */
  const WitnessState := Manager(WitnessDoc, WitnessDoc, map[], "", None)

  function NothingConnects(i: nat): string -> Connection {
    (path: string) => BuildFailed
  }

  lemma WitnessStateIsStartupState()
    ensures NewClusterManager(WitnessDoc, NothingConnects).manager == WitnessState
  {
  }

  /** Disabling the unnamed entry clears the preference for "a", which was never active. */
  lemma UpdateClusterClearsUnrelatedPreference(connect: string -> Connection)
    ensures !TargetIsActive(WitnessState, "")
    ensures UpdateCluster(WitnessState, "", ClusterInfo("", "p", false), connect, Saved).status == Done
    ensures UpdateCluster(WitnessState, "", ClusterInfo("", "p", false), connect, Saved).next.saved.activeCluster == ""
    ensures UpdateClusterFixed(WitnessState, "", ClusterInfo("", "p", false), connect, Saved).next.saved.activeCluster == "a"
  {
  }

  /** The same update with a failing save writes "" into the in-memory preference. */
  lemma UpdateClusterFailedSaveRewritesPreference(connect: string -> Connection)
    ensures UpdateCluster(WitnessState, "", ClusterInfo("", "p", false), connect, SaveFailed).status.Failed?
    ensures UpdateCluster(WitnessState, "", ClusterInfo("", "p", false), connect, SaveFailed).next.doc.activeCluster == ""
    ensures UpdateClusterFixed(WitnessState, "", ClusterInfo("", "p", false), connect, SaveFailed).next == WitnessState
  {
  }

  /** Removing the unnamed entry clears the preference for "a". */
  lemma RemoveClusterClearsUnrelatedPreference()
    ensures RemoveCluster(WitnessState, "", Saved).status == Done
    ensures RemoveCluster(WitnessState, "", Saved).next.saved.activeCluster == ""
    ensures RemoveClusterFixed(WitnessState, "", Saved).next.saved.activeCluster == "a"
  {
  }
}

=== FILE: paths.dfy ===
/**
 * The two pieces of Go's path/filepath package the configuration code relies on,
 * for '/'-separated paths.
 */
module Paths {

  const Separator: char := '/'

  /** Every '.' of `path` is followed, somewhere later, by a separator: the last element has no dot. */
  ghost predicate NoDotInLastElement(path: string) {
    forall k :: 0 <= k < |path| && path[k] == '.' ==>
      exists j :: k < j < |path| && path[j] == Separator
  }

  /**
   * filepath.Ext: the suffix of the last path element that starts at its last '.',
   * or "" when the last element has no '.'.
   */
  function Ext(path: string): (e: string)
    ensures |e| <= |path| && e == path[|path| - |e|..]
    ensures e != "" ==> e[0] == '.' && '.' !in e[1..] && Separator !in e
    ensures e == "" <==> NoDotInLastElement(path)
  {
    if |path| == 0 then ""
    else
      var init, last := path[..|path| - 1], path[|path| - 1];
      if last == Separator then ""
      else if last == '.' then "."
      else
        var e := Ext(init);
        assert NoDotInLastElement(init) <==> NoDotInLastElement(path) by {
          if NoDotInLastElement(init) {
            forall k | 0 <= k < |path| && path[k] == '.'
              ensures exists j :: k < j < |path| && path[j] == Separator
            {
              assert k < |init| && init[k] == '.';
              var j :| k < j < |init| && init[j] == Separator;
              assert path[j] == Separator;
            }
          }
          if NoDotInLastElement(path) {
            forall k | 0 <= k < |init| && init[k] == '.'
              ensures exists j :: k < j < |init| && init[j] == Separator
            {
              assert path[k] == '.';
              var j :| k < j < |path| && path[j] == Separator;
              assert j < |init| && init[j] == Separator;
            }
          }
        }
        if e == "" then "" else e + [last]
  }

  /**
   * filepath.Join(dir, rel) for a relative `rel` that is already clean:
   * exactly one separator between a non-empty `dir` and `rel`.
   */
  function Join(dir: string, rel: string): (p: string)
    requires rel != "" && rel[0] != Separator
    ensures |p| >= |rel| && p[|p| - |rel|..] == rel
    ensures dir == "" <==> p == rel
    ensures |p| >= |dir| && p[..|dir|] == dir
    // A non-empty directory is followed by exactly one separator before `rel`.
    ensures dir != "" ==> |p| <= |dir| + 1 + |rel| && p[|p| - |rel| - 1] == Separator
    // The separator is added only when `dir` does not already end in one.
    ensures dir != "" && dir[|dir| - 1] == Separator ==> |p| == |dir| + |rel|
    ensures dir != "" && dir[|dir| - 1] != Separator ==> |p| == |dir| + 1 + |rel|
  {
    if dir == "" then rel
    else if dir[|dir| - 1] == Separator then dir + rel
    else dir + [Separator] + rel
  }
}

=== FILE: registry_invariants.dfy ===
/**
 * The registry invariants and their preservation by every operation of the manager:
 *   - every name in `clients` has an enabled entry in the in-memory cluster list;
 *   - a set `activeClientName` always has an active client;
 *   - an active client is the one stored under `activeClientName`, and that name is the
 *     preferred `ActiveCluster` of the in-memory configuration.
 */
module RegistryInvariants {
  import opened Base
  import opened Configs
  import opened ClusterManager
  import opened ManagerFixes

  ghost predicate Valid(m: Manager) {
    && (forall n :: n in m.clients ==> HasActiveEntry(m.doc.clusters, n))
    && (m.activeName != "" ==> m.active.Some?)
    && (m.active.Some? ==>
          && m.activeName in m.clients
          && m.clients[m.activeName] == m.active.value
          && m.doc.activeCluster == m.activeName)
  }

  /** Startup establishes the invariants. */
  lemma NewClusterManagerValid(doc: Document, connect: nat -> string -> Connection)
    ensures Valid(NewClusterManager(doc, connect).manager)
  {
  }

  lemma SetActiveClusterPreservesValid(m: Manager, name: string, save: SaveResult)
    requires Valid(m)
    ensures Valid(SetActiveCluster(m, name, save).next)
  {
  }

  lemma AddClusterPreservesValid(m: Manager, info: ClusterInfo, connect: string -> Connection, save: SaveResult)
    requires Valid(m)
    ensures Valid(AddCluster(m, info, connect, save).next)
  {
    var r := AddCluster(m, info, connect, save);
    if r.status == Done {
      var s := r.next.doc.clusters;
      assert s == m.doc.clusters + [info];
      forall n | n in r.next.clients
        ensures HasActiveEntry(s, n)
      {
        if n == info.name {
          assert s[|s| - 1] == info;
        } else {
          var i :| 0 <= i < |m.doc.clusters| && m.doc.clusters[i].name == n && m.doc.clusters[i].isActive;
          assert s[i] == m.doc.clusters[i];
        }
      }
    }
  }

  /** Under the invariants the second duplicate check of `AddCluster` never fires. */
  lemma AddClusterNeverSeesStrayClient(m: Manager, info: ClusterInfo, connect: string -> Connection, save: SaveResult)
    requires Valid(m)
    ensures AddCluster(m, info, connect, save).status != Failed(AlreadyLoaded(info.name))
  {
  }

  /**
   * Both the code's test (`activeClientName == clusterName`) and a stricter one may be
   * used for "was the target active", as long as a target that really is active counts.
   */
  lemma UpdateClusterWithPreservesValid(m: Manager, name: string, info: ClusterInfo, wasActive: bool,
                                        connect: string -> Connection, save: SaveResult)
    requires Valid(m)
    requires m.active.Some? && m.activeName == name ==> wasActive
    requires wasActive ==> m.activeName == name
    ensures Valid(UpdateClusterWith(m, name, info, wasActive, connect, save).next)
  {
    var r := UpdateClusterWith(m, name, info, wasActive, connect, save);
    if (info.name == name || info.name == "") && Configured(m.doc.clusters, name) && save.Saved? {
      var i := IndexOf(m.doc.clusters, name).value;
      var updated := info.(name := name);
      var s := r.next.doc.clusters;
      assert s == m.doc.clusters[i := updated];
      forall n | n in r.next.clients
        ensures HasActiveEntry(s, n)
      {
        if n == name {
          assert s[i] == updated && updated.isActive;
        } else {
          var j :| 0 <= j < |m.doc.clusters| && m.doc.clusters[j].name == n && m.doc.clusters[j].isActive;
          assert j != i && s[j] == m.doc.clusters[j];
        }
      }
    }
  }

  lemma UpdateClusterPreservesValid(m: Manager, name: string, info: ClusterInfo,
                                    connect: string -> Connection, save: SaveResult)
    requires Valid(m)
    ensures Valid(UpdateCluster(m, name, info, connect, save).next)
  {
    UpdateClusterWithPreservesValid(m, name, info, m.activeName == name, connect, save);
  }

  lemma RemoveClusterWithPreservesValid(m: Manager, name: string, wasActive: bool, save: SaveResult)
    requires Valid(m)
    requires m.active.Some? && m.activeName == name ==> wasActive
    ensures Valid(RemoveClusterWith(m, name, wasActive, save).next)
  {
  }

  lemma RemoveClusterPreservesValid(m: Manager, name: string, save: SaveResult)
    requires Valid(m)
    ensures Valid(RemoveCluster(m, name, save).next)
  {
  }

  lemma UpdateClusterFixedPreservesValid(m: Manager, name: string, info: ClusterInfo,
                                         connect: string -> Connection, save: SaveResult)
    requires Valid(m)
    ensures Valid(UpdateClusterFixed(m, name, info, connect, save).next)
  {
    UpdateClusterWithPreservesValid(m, name, info, TargetIsActive(m, name), connect, save);
  }

  lemma RemoveClusterFixedPreservesValid(m: Manager, name: string, save: SaveResult)
    requires Valid(m)
    ensures Valid(RemoveClusterFixed(m, name, save).next)
  {
  }

  /** For a named target the corrected operations and the code agree: the two tests
      differ only for the empty name. */
  lemma FixesAgreeOnNamedTargets(m: Manager, name: string, info: ClusterInfo,
                                 connect: string -> Connection, save: SaveResult)
    requires Valid(m) && name != ""
    ensures UpdateClusterFixed(m, name, info, connect, save) == UpdateCluster(m, name, info, connect, save)
    ensures RemoveClusterFixed(m, name, save) == RemoveCluster(m, name, save)
  {
  }

  /** With the invariants, the active client is the one `GetClient` finds under its name. */
  lemma ActiveClientIsRegistered(m: Manager)
    requires Valid(m) && GetActiveClient(m).Ok?
    ensures GetClient(m, m.activeName) == GetActiveClient(m)
    ensures GetClusterConfiguration(m, m.activeName).Ok?
  {
  }

  /** With the invariants, every name `GetClient` finds has an enabled entry, so
      `GetClusterConfiguration` finds it too. */
  lemma LookupFindsOnlyEnabledClusters(m: Manager, name: string)
    requires Valid(m) && GetClient(m, name).Ok?
    ensures HasActiveEntry(m.doc.clusters, name)
    ensures GetClusterConfiguration(m, name).Ok?
  {
  }

  // ---------------------------------------------------------------------------
  // Whole runs
  // ---------------------------------------------------------------------------

  /** One administrative call, with the outcomes of its side effects. */
  datatype Operation =
    | SetActive(name: string, save: SaveResult)
    | Add(info: ClusterInfo, connect: string -> Connection, save: SaveResult)
    | Update(name: string, info: ClusterInfo, connect: string -> Connection, save: SaveResult)
    | Remove(name: string, save: SaveResult)

  function Apply(m: Manager, op: Operation): Step {
    match op
    case SetActive(name, save) => SetActiveCluster(m, name, save)
    case Add(info, connect, save) => AddCluster(m, info, connect, save)
    case Update(name, info, connect, save) => UpdateClusterFixed(m, name, info, connect, save)
    case Remove(name, save) => RemoveClusterFixed(m, name, save)
  }

  /** The state after a sequence of calls, one at a time. */
  function Run(m: Manager, ops: seq<Operation>): Manager
    decreases |ops|
  {
    if |ops| == 0 then m else Run(Apply(m, ops[0]).next, ops[1..])
  }

  /** One call as pkg/k8s/manager.go is written, with the original "was active" test. */
  function ApplyAsWritten(m: Manager, op: Operation): Step {
    match op
    case SetActive(name, save) => SetActiveCluster(m, name, save)
    case Add(info, connect, save) => AddCluster(m, info, connect, save)
    case Update(name, info, connect, save) => UpdateCluster(m, name, info, connect, save)
    case Remove(name, save) => RemoveCluster(m, name, save)
  }

  function RunAsWritten(m: Manager, ops: seq<Operation>): Manager
    decreases |ops|
  {
    if |ops| == 0 then m else RunAsWritten(ApplyAsWritten(m, ops[0]).next, ops[1..])
  }

  /** The code as written also keeps the invariants over any run of calls. */
  lemma {:induction false} RunAsWrittenPreservesValid(m: Manager, ops: seq<Operation>)
    requires Valid(m)
    ensures Valid(RunAsWritten(m, ops))
    decreases |ops|
  {
    if |ops| > 0 {
      var op := ops[0];
      match op {
        case SetActive(name, save) => SetActiveClusterPreservesValid(m, name, save);
        case Add(info, connect, save) => AddClusterPreservesValid(m, info, connect, save);
        case Update(name, info, connect, save) => UpdateClusterPreservesValid(m, name, info, connect, save);
        case Remove(name, save) => RemoveClusterPreservesValid(m, name, save);
      }
      RunAsWrittenPreservesValid(ApplyAsWritten(m, op).next, ops[1..]);
    }
  }

  lemma ReachableStatesAreValidAsWritten(doc: Document, connect: nat -> string -> Connection, ops: seq<Operation>)
    ensures Valid(RunAsWritten(NewClusterManager(doc, connect).manager, ops))
  {
    NewClusterManagerValid(doc, connect);
    RunAsWrittenPreservesValid(NewClusterManager(doc, connect).manager, ops);
  }

  /** Every state reachable from startup by administrative calls satisfies the invariants. */
  lemma {:induction false} RunPreservesValid(m: Manager, ops: seq<Operation>)
    requires Valid(m)
    ensures Valid(Run(m, ops))
    decreases |ops|
  {
    if |ops| > 0 {
      var op := ops[0];
      match op {
        case SetActive(name, save) => SetActiveClusterPreservesValid(m, name, save);
        case Add(info, connect, save) => AddClusterPreservesValid(m, info, connect, save);
        case Update(name, info, connect, save) => UpdateClusterFixedPreservesValid(m, name, info, connect, save);
        case Remove(name, save) => RemoveClusterFixedPreservesValid(m, name, save);
      }
      RunPreservesValid(Apply(m, op).next, ops[1..]);
    }
  }

  lemma ReachableStatesAreValid(doc: Document, connect: nat -> string -> Connection, ops: seq<Operation>)
    ensures Valid(Run(NewClusterManager(doc, connect).manager, ops))
  {
    NewClusterManagerValid(doc, connect);
    RunPreservesValid(NewClusterManager(doc, connect).manager, ops);
  }

  // ---------------------------------------------------------------------------
  // Durability and order
  // ---------------------------------------------------------------------------

  /** Every call that reports success leaves the saved document equal to the in-memory one. */
  lemma SuccessIsSaved(m: Manager, op: Operation)
    ensures Apply(m, op).status == Done ==> Apply(m, op).next.saved == Apply(m, op).next.doc
    ensures ApplyAsWritten(m, op).status == Done ==> ApplyAsWritten(m, op).next.saved == ApplyAsWritten(m, op).next.doc
  {
  }

  /** A failed save never changes what is on disk. */
  lemma FailedSaveLeavesDiskAlone(m: Manager, op: Operation)
    requires op.save.SaveFailed?
    ensures Apply(m, op).next.saved == m.saved
    ensures ApplyAsWritten(m, op).next.saved == m.saved
  {
  }

  /**
   * With the corrected update and remove, a failed `AddCluster`, `UpdateCluster` or
   * `RemoveCluster` leaves the whole state as it was, in memory and on disk; only
   * `SetActiveCluster` keeps a switch whose save failed. The code as written breaks this
   * (`ManagerFixes.UpdateClusterFailedSaveRewritesPreference`).
   */
  lemma FailedChangeIsUndone(m: Manager, op: Operation)
    requires Valid(m)
    requires !op.SetActive? && Apply(m, op).status.Failed?
    ensures Apply(m, op).next == m
  {
  }

  /** Removal keeps the surviving entries in their original order. */
  lemma {:induction false} WithoutPreservesOrder(a: seq<ClusterInfo>, b: seq<ClusterInfo>, name: string)
    ensures Without(a + b, name) == Without(a, name) + Without(b, name)
    decreases |a|
  {
    if |a| == 0 {
      assert a + b == b;
    } else {
      assert (a + b)[0] == a[0];
      assert (a + b)[1..] == a[1..] + b;
      WithoutPreservesOrder(a[1..], b, name);
    }
  }

  /** Removing a name that no entry carries leaves the list as it is. */
  lemma {:induction false} WithoutUnusedName(s: seq<ClusterInfo>, name: string)
    requires !Configured(s, name)
    ensures Without(s, name) == s
    decreases |s|
  {
    if |s| > 0 {
      assert s[0].name != name;
      assert !Configured(s[1..], name);
      WithoutUnusedName(s[1..], name);
      assert [s[0]] + s[1..] == s;
    }
  }
}

=== FILE: resolver.dfy ===
/**
 * The request-scoped client resolver of pkg/k8s/utils.go: the `cluster_name` path
 * parameter of a request is turned into a client of the registry, or into the HTTP
 * status of the error response the handler writes. The resolver only reads the registry.
 */
module Resolver {
  import opened Base
  import opened ClusterManager

  const StatusBadRequest := 400
  const StatusNotFound := 404
  const StatusInternalServerError := 500

  /** `(client, true)`, or `(nil, false)` after an error response with this status. */
  datatype Resolution = Resolved(client: Client) | Rejected(status: int)

  /** `GetK8sClientFromContext`, given the value of the `cluster_name` path parameter. */
  function ClientForRequest(m: Manager, clusterName: string): (r: Resolution)
    // A missing name is a bad request, whatever the registry holds.
    ensures r == Rejected(StatusBadRequest) <==> clusterName == ""
    // Every lookup failure becomes "not found".
    ensures r == Rejected(StatusNotFound) <==> clusterName != "" && GetClient(m, clusterName).Err?
    // A registered client without a Clientset is an internal error.
    ensures r == Rejected(StatusInternalServerError) <==>
              clusterName != "" && GetClient(m, clusterName).Ok? && !GetClient(m, clusterName).value.hasClientset
    // Success hands out exactly the registry's client for that name.
    ensures r.Resolved? <==> clusterName != "" && Switchable(m, clusterName)
    ensures r.Resolved? ==> GetClient(m, clusterName) == Ok(r.client)
  {
    if clusterName == "" then Rejected(StatusBadRequest)
    else
      match GetClient(m, clusterName)
      case Err(_) => Rejected(StatusNotFound)
      case Ok(client) =>
        if !client.hasClientset then Rejected(StatusInternalServerError)
        else Resolved(client)
  }

  /** The answer depends on the registry only through `GetClient` for that one name. */
  lemma ResolutionDependsOnlyOnLookup(m1: Manager, m2: Manager, clusterName: string)
    requires GetClient(m1, clusterName) == GetClient(m2, clusterName)
    ensures ClientForRequest(m1, clusterName) == ClientForRequest(m2, clusterName)
  {
  }

  /** A request always resolves to the client `SetActiveCluster` would accept under that name. */
  lemma ResolvedIffSwitchable(m: Manager, clusterName: string)
    requires clusterName != ""
    ensures ClientForRequest(m, clusterName).Resolved? <==> SetActiveCluster(m, clusterName, Saved).status == Done
  {
  }
}

=== FILE: server_main.dfy ===
/**
 * The startup policy of cmd/server/main.go: where the configuration file is looked for,
 * whether any cluster came up, and which client the services get as their initial one.
 */
module ServerMain {
  import opened Base
  import Paths
  import opened ClusterManager

  const WorkingDirConfig := "configs/config.yaml"
  const FallbackConfigPath := "../../configs/config.yaml"

  /**
   * `loadConfig`'s choice of file: the `-config` flag, else CILIKUBE_CONFIG_PATH, else
   * `<wd>/configs/config.yaml` when the working directory is known and that file exists,
   * else the fallback relative path. `workingDir` is None when os.Getwd fails and
   * `fileExists` answers os.Stat.
   */
  function ConfigPath(flagPath: string, envPath: string, workingDir: Option<string>,
                      fileExists: string -> bool): (p: string)
    ensures flagPath != "" ==> p == flagPath
    ensures flagPath == "" && envPath != "" ==> p == envPath
    ensures flagPath == "" && envPath == "" && workingDir.Some? &&
            fileExists(Paths.Join(workingDir.value, WorkingDirConfig)) ==>
              p == Paths.Join(workingDir.value, WorkingDirConfig)
    ensures flagPath == "" && envPath == "" &&
            !(workingDir.Some? && fileExists(Paths.Join(workingDir.value, WorkingDirConfig))) ==>
              p == FallbackConfigPath
    // So the "cannot determine the configuration path" error is never returned.
    ensures p != ""
  {
    if flagPath != "" then flagPath
    else if envPath != "" then envPath
    else if workingDir.Some? && fileExists(Paths.Join(workingDir.value, WorkingDirConfig)) then
      Paths.Join(workingDir.value, WorkingDirConfig)
    else FallbackConfigPath
  }

  /** The loop computing `anyK8sClientActuallyAvailable` over the availability report. */
  method AnyClusterAvailable(availability: map<string, bool>) returns (any: bool)
    ensures any <==> exists n :: n in availability && availability[n]
  {
    any := false;
    var rest := availability.Keys;
    while rest != {}
      invariant rest <= availability.Keys
      invariant any <==> exists n :: n in availability && n !in rest && availability[n]
      decreases rest
    {
      var n :| n in rest;
      if availability[n] {
        any := true;
      }
      rest := rest - {n};
    }
  }

  /** The configured ActiveCluster has a client and was reported available at startup. */
  predicate PreferredUsable(m: Manager, availability: map<string, bool>, preferred: string) {
    preferred != "" && preferred in m.clients && preferred in availability && availability[preferred]
  }

  /** Every cluster reported available has a client, as `NewClusterManager` guarantees. */
  ghost predicate AvailabilityBacked(m: Manager, availability: map<string, bool>) {
    forall n :: n in availability && availability[n] ==> n in m.clients
  }

  /**
   * The choice of the services' initial client: the configured ActiveCluster when usable,
   * else the first name `GetAvailableClientNames` lists when any cluster is available.
   */
  method ChooseInitialClient(m: Manager, availability: map<string, bool>, preferred: string)
    returns (client: Option<Client>, found: bool)
    ensures found <==> client.Some?
    ensures PreferredUsable(m, availability, preferred) ==> client == Some(m.clients[preferred])
    ensures client.Some? ==> exists n :: n in m.clients && client == Some(m.clients[n])
    ensures !PreferredUsable(m, availability, preferred) && !(exists n :: n in availability && availability[n]) ==>
              !found
    ensures (exists n :: n in availability && availability[n]) && m.clients.Keys != {} ==> found
    ensures AvailabilityBacked(m, availability) ==> (found <==> exists n :: n in availability && availability[n])
  {
    var any := AnyClusterAvailable(availability);
    client, found := None, false;
    if preferred != "" {
      var lookup := GetClient(m, preferred);
      if lookup.Ok? && preferred in availability && availability[preferred] {
        client, found := Some(lookup.value), true;
      }
    }
    if !found && any {
      var names := GetAvailableClientNames(m);
      assert m.clients.Keys != {} ==> |names| > 0 by {
        if m.clients.Keys != {} {
          var n :| n in m.clients.Keys;
          assert n in names;
        }
      }
      if |names| > 0 {
        var lookup := GetClient(m, names[0]);
        if lookup.Ok? {
          client, found := Some(lookup.value), true;
        }
      }
    }
  }

  /** What `NewClusterManager` reports as available is backed by a client. */
  lemma StartupAvailabilityBacked(doc: Document, connect: nat -> string -> Connection)
    ensures AvailabilityBacked(NewClusterManager(doc, connect).manager, NewClusterManager(doc, connect).availability)
  {
  }

  /**
   * Startup as `main` runs it: build the registry, then choose the initial client.
   * A client is chosen exactly when some cluster is reported available, and then only
   * among the registered ones. When no entry is disabled, that is exactly when some
   * cluster has a client.
   */
  method StartClusters(doc: Document, connect: nat -> string -> Connection)
    returns (m: Manager, availability: map<string, bool>, anyAvailable: bool, client: Option<Client>, found: bool)
    ensures m == NewClusterManager(doc, connect).manager
    ensures availability == NewClusterManager(doc, connect).availability
    ensures anyAvailable <==> exists n :: n in availability && availability[n]
    ensures PreferredUsable(m, availability, doc.activeCluster) ==> client == Some(m.clients[doc.activeCluster])
    ensures found <==> anyAvailable
    ensures anyAvailable ==> m.clients.Keys != {}
    ensures (forall i :: 0 <= i < |doc.clusters| ==> doc.clusters[i].isActive) ==>
              (anyAvailable <==> m.clients.Keys != {})
    ensures client.Some? ==> exists n :: n in m.clients && client == Some(m.clients[n])
  {
    var startup := NewClusterManager(doc, connect);
    StartupAvailabilityBacked(doc, connect);
    m, availability := startup.manager, startup.availability;
    anyAvailable := AnyClusterAvailable(availability);
    client, found := ChooseInitialClient(m, availability, doc.activeCluster);
    if forall i :: 0 <= i < |doc.clusters| ==> doc.clusters[i].isActive {
      if m.clients.Keys != {} {
        var n :| n in m.clients.Keys;
        assert ActiveBefore(doc.clusters, |doc.clusters|, n);
        assert n in availability && availability[n];
      }
    }
  }
}

=== FILE: services.dfy ===
/**
 * The services of internal/service that do more than forward to client-go. Each function
 * returns the request the service would hand to the API, or the `ValidationError` it
 * returns without calling the API. The clientset argument only picks the cluster and is
 * left out.
 */
module ConfigMapService {
  import opened Base
  import opened KubeRequests

  function List(namespace: string, labelSelector: string, limit: int64): (r: Request)
    ensures r.verb == KubeRequests.List && r.kind == ConfigMaps && r.namespace == Some(namespace)
    ensures r.options == SelectiveListOptions(labelSelector, limit)
    ensures r.body.None?
  {
    Request(KubeRequests.List, ConfigMaps, Some(namespace), "", SelectiveListOptions(labelSelector, limit), None)
  }

  function Create(namespace: string, cm: Object): (r: Result<Request, ValidationError>)
    ensures r == Err(NamespaceConflict) <==> ConflictsWith(namespace, cm)
    ensures r == Err(EmptyName) <==> !ConflictsWith(namespace, cm) && cm.name == ""
    ensures r.Ok? ==> SendsInPath(r.value, KubeRequests.Create, ConfigMaps, namespace, cm)
  {
    NamespacedWrite(KubeRequests.Create, ConfigMaps, namespace, cm)
  }

  function Update(namespace: string, cm: Object): (r: Result<Request, ValidationError>)
    ensures r == Err(NamespaceConflict) <==> ConflictsWith(namespace, cm)
    ensures r == Err(EmptyName) <==> !ConflictsWith(namespace, cm) && cm.name == ""
    ensures r.Ok? ==> SendsInPath(r.value, KubeRequests.Update, ConfigMaps, namespace, cm)
  {
    NamespacedWrite(KubeRequests.Update, ConfigMaps, namespace, cm)
  }
}

module SecretService {
  import opened Base
  import opened KubeRequests

  function List(namespace: string, labelSelector: string, limit: int64): (r: Request)
    ensures r.verb == KubeRequests.List && r.kind == Secrets && r.namespace == Some(namespace)
    ensures r.options == SelectiveListOptions(labelSelector, limit)
    ensures r.body.None?
  {
    Request(KubeRequests.List, Secrets, Some(namespace), "", SelectiveListOptions(labelSelector, limit), None)
  }

  function Create(namespace: string, secret: Object): (r: Result<Request, ValidationError>)
    ensures r == Err(NamespaceConflict) <==> ConflictsWith(namespace, secret)
    ensures r == Err(EmptyName) <==> !ConflictsWith(namespace, secret) && secret.name == ""
    ensures r.Ok? ==> SendsInPath(r.value, KubeRequests.Create, Secrets, namespace, secret)
  {
    NamespacedWrite(KubeRequests.Create, Secrets, namespace, secret)
  }

  function Update(namespace: string, secret: Object): (r: Result<Request, ValidationError>)
    ensures r == Err(NamespaceConflict) <==> ConflictsWith(namespace, secret)
    ensures r == Err(EmptyName) <==> !ConflictsWith(namespace, secret) && secret.name == ""
    ensures r.Ok? ==> SendsInPath(r.value, KubeRequests.Update, Secrets, namespace, secret)
  {
    NamespacedWrite(KubeRequests.Update, Secrets, namespace, secret)
  }
}

module PVService {
  import opened Base
  import opened KubeRequests

  /** `Get` forwards any name, the empty one included, without validation. */
  function Get(name: string): (r: Request)
    ensures r.verb == KubeRequests.Get && r.kind == PersistentVolumes && r.namespace.None?
    ensures r.name == name && r.body.None?
  {
    Request(KubeRequests.Get, PersistentVolumes, None, name, NoListOptions, None)
  }

  function List(labelSelector: string, limit: int64): (r: Request)
    ensures r.verb == KubeRequests.List && r.kind == PersistentVolumes && r.namespace.None?
    ensures r.options == SelectiveListOptions(labelSelector, limit)
  {
    Request(KubeRequests.List, PersistentVolumes, None, "", SelectiveListOptions(labelSelector, limit), None)
  }

  function Create(pv: Object): (r: Result<Request, ValidationError>)
    ensures r == Err(EmptyName) <==> pv.name == ""
    ensures r.Ok? <==> pv.name != ""
    // The namespace is cleared, whatever the caller supplied; name and content are kept.
    ensures r.Ok? ==> r.value.verb == KubeRequests.Create && r.value.kind == PersistentVolumes &&
                      r.value.namespace.None? && r.value.body == Some(Object(pv.name, "", pv.content))
  {
    ClusterScopedWrite(KubeRequests.Create, PersistentVolumes, pv)
  }

  function Update(pv: Object): (r: Result<Request, ValidationError>)
    ensures r == Err(EmptyName) <==> pv.name == ""
    ensures r.Ok? <==> pv.name != ""
    // The namespace is cleared, whatever the caller supplied; name and content are kept.
    ensures r.Ok? ==> r.value.verb == KubeRequests.Update && r.value.kind == PersistentVolumes &&
                      r.value.namespace.None? && r.value.body == Some(Object(pv.name, "", pv.content))
  {
    ClusterScopedWrite(KubeRequests.Update, PersistentVolumes, pv)
  }

  /** `Delete` forwards any name, the empty one included, without validation. */
  function Delete(name: string): (r: Request)
    ensures r.verb == KubeRequests.Delete && r.kind == PersistentVolumes && r.namespace.None?
    ensures r.name == name && r.body.None?
  {
    Request(KubeRequests.Delete, PersistentVolumes, None, name, NoListOptions, None)
  }
}

module NodeService {
  import opened Base
  import opened KubeRequests

  const DefaultWatchTimeout: int64 := 1800

  /** `List` passes selector, limit and continue token through as given, a negative
      limit and an empty selector included. */
  function List(selector: string, limit: int64, continueToken: string): (r: Request)
    ensures r.verb == KubeRequests.List && r.kind == Nodes && r.namespace.None?
    ensures r.options.labelSelector == selector && r.options.limit == limit && r.options.continueToken == continueToken
    ensures r.options.resourceVersion == "" && !r.options.watch && r.options.timeoutSeconds.None?
  {
    Request(KubeRequests.List, Nodes, None, "", NoListOptions.(labelSelector := selector, limit := limit, continueToken := continueToken), None)
  }

  /** The client-side timeout of `Watch`: a positive one as given, zero for the default,
      a negative one for none at all. */
  function WatchTimeout(timeoutSeconds: int64): (t: Option<int64>)
    ensures timeoutSeconds > 0 ==> t == Some(timeoutSeconds)
    ensures timeoutSeconds == 0 ==> t == Some(DefaultWatchTimeout)
    ensures timeoutSeconds < 0 ==> t.None?
    // A timeout that is set is always positive.
    ensures t.Some? ==> t.value > 0
  {
    if timeoutSeconds > 0 then Some(timeoutSeconds)
    else if timeoutSeconds == 0 then Some(DefaultWatchTimeout)
    else None
  }

  function Watch(selector: string, resourceVersion: string, timeoutSeconds: int64): (r: Request)
    ensures r.verb == KubeRequests.Watch && r.kind == Nodes && r.namespace.None?
    ensures r.options.watch
    ensures r.options.labelSelector == selector && r.options.resourceVersion == resourceVersion
    ensures r.options.timeoutSeconds == WatchTimeout(timeoutSeconds)
    ensures r.options.limit == 0 && r.options.continueToken == ""
  {
    Request(KubeRequests.Watch, Nodes, None, "",
            ListOptions(selector, 0, "", resourceVersion, true, WatchTimeout(timeoutSeconds)), None)
  }

  /** The node list and the selective list agree exactly when the limit is not negative. */
  lemma NodeListKeepsNegativeLimits(selector: string, limit: int64)
    ensures (List(selector, limit, "").options == SelectiveListOptions(selector, limit)) <==> limit >= 0
  {
  }

  /** A watch re-issued with the timeout it was given keeps that timeout, the default
      standing in for zero; no timeout is set only when a negative one was given. */
  lemma WatchTimeoutStable(timeoutSeconds: int64)
    ensures WatchTimeout(timeoutSeconds).Some? ==> WatchTimeout(WatchTimeout(timeoutSeconds).value) == WatchTimeout(timeoutSeconds)
    ensures WatchTimeout(timeoutSeconds).None? ==> timeoutSeconds < 0
  {
  }
}
